=== FILE: README.md ===
# Song-play ETL loader, modelled in Dafny

This project models the core of a small extract-transform-load script
(`etl.py`). The script reads two trees of JSON-lines files and loads them
into a star schema.
- **Catalog files** each describe one song and its artist. They become one
  row of the `songs` table and one row of the `artists` table.
- **Event-log files** hold listening events. Every `NextSong` event becomes:
  - a row of the `time` table (hour, day, ISO week, month, year and weekday
    of its timestamp);
  - a row of the `users` table;
  - a catalog query for the song's ids;
  - a row of the `songplays` table. That row carries both ids when the query
    finds the song and neither id when it does not.
- **The driver** collects every `*.json` file under a data directory. As with shell wildcards, a name that starts with `.` does not match. It
  calls the right extractor on each file in order. After each file it commits
  and prints `i/n files processed.`.

The model does no I/O.
- The database cursor is the append-only sequence of statements it executed
  (`Trace.Stmt`). The SQL text of each statement is opaque.
- The catalog query is a given partial map from (title, artist name, length)
  to the ids of the first matching row.
- Parsed JSON files are given as sequences of records.
- The directory walk is given as a sequence of directory listings.
- The driver's observable behaviour is a log of effects (`Driver.Effect`):
  - the count message;
  - extractor calls;
  - executed statements;
  - commits;
  - progress messages.

Modules, one per file:

| file | module | what it holds |
|---|---|---|
| `types.dfy` | `Types` | `Option`, opaque floats, the extractor errors, parsed file content |
| `trace.dfy` | `Trace` | the five kinds of row, statements, one extractor run, reading rows off a trace |
| `song_file.dfy` | `SongFile` | the catalog extractor |
| `calendar.dfy` | `Calendar` | proleptic Gregorian dates, ISO 8601 week numbers and weekdays from a day count |
| `log_file.dfy` | `LogFile` | the event extractor: filter, time/user projection, catalog lookup, songplay rows |
| `discovery.dfy` | `Discovery` | `*.json` selection over a directory walk |
| `driver.dfy` | `Driver` | the per-file call / commit / progress loop |

Errors the extractors can raise:
- `MalformedJson`: the JSON reader rejects the file.
- `MissingColumn`: a file with no lines has no columns, so selecting one
  fails.
- `TimestampOutOfRange`: a kept event's millisecond timestamp times 10^6
  leaves the signed 64-bit nanosecond range that the datetime conversion
  accepts.

Every error is raised before the extractor's first statement. The driver
itself treats any extractor failure as opaque.

## Model

| member | source | states |
|---|---|---|
| SongFile.ProcessSongFile | etl.py:19-27 | A malformed file fails with `MalformedJson` and a file without lines fails with `MissingColumn`; both execute nothing. Otherwise there are exactly two statements: the song insert, then the artist insert. Both carry the same `artist_id`, and together they give back the whole first record. |
| SongFile.OnlyFirstRecordCounts | etl.py:22-26 | Records after the first do not change what a catalog file executes. |
| Calendar.CivilFromDays | etl.py:48-51 | The civil date of a day count is a real Gregorian date: its month is in 1..12, and its day runs from 1 to the month's length (30 or 31, and 29 for February only in a leap year). |
| Calendar.YearOfEraTight | etl.py:48-51 | Each day of a 400-year era falls inside its March-based year. That year has 366 days only when the February ending it has a 29th. |
| Calendar.CivilRoundTrip | etl.py:48-51 | Converting a day count to a date and back gives the same day count, for every day before and after the epoch. |
| Calendar.CivilInjective | etl.py:48-51 | Distinct day counts have distinct dates. |
| Calendar.MarchYearLength | etl.py:48-51 | A March-to-February year has 366 days exactly when the following calendar year is a Gregorian leap year, and 365 otherwise. |
| Calendar.OrdinalBounds | etl.py:51 | Each day's position in its calendar year lies between 1 and the year's length (365, or 366 in a leap year). |
| Calendar.IsoWeek | etl.py:51 | The ISO week number of a day is between 1 and 53. |
| Calendar.Weekday | etl.py:51 | The weekday is between 0 (Monday) and 6 (Sunday). |
| Calendar.WeekdayNext | etl.py:51 | The day after a day with weekday w has weekday (w + 1) mod 7, so Sunday (6) is followed by Monday (0). |
| Calendar.WeekdayEpoch | etl.py:51 | 1 January 1970 is a Thursday (weekday 3). With `WeekdayNext`, this fixes the weekday of every day before and after it. |
| Calendar.Example2018November | etl.py:48-51 | Day 17836 is Thursday 1 November 2018, in ISO week 44. |
| Calendar.Example2018YearEnd | etl.py:51 | Monday 31 December 2018 belongs to ISO week 1. |
| Calendar.Example2021NewYear | etl.py:51 | Friday 1 January 2021 belongs to ISO week 53. |
| LogFile.Kept | etl.py:45 | The kept events are exactly the input events whose page is `NextSong`, and there are no more kept events than input events. |
| LogFile.KeptAppend | etl.py:45 | Filtering two parts of a file one after the other keeps their events one after the other. |
| LogFile.DroppedEventInvisible | etl.py:45 | Inserting a non-`NextSong` event anywhere leaves the kept events unchanged. |
| LogFile.FilterPlays | etl.py:45 | The loop filter computes exactly the kept events. |
| LogFile.CheckTimestamps | etl.py:48 | The conversion succeeds exactly when every kept timestamp fits the nanosecond range. |
| LogFile.TimeRowOf | etl.py:48-51 | A time row keeps its timestamp. It has hour 0..23, month 1..12, a day within that month's length, week 1..53 and weekday 0..6. |
| LogFile.TimeRowLocatesTimestamp | etl.py:48-51 | The row's year, month and day form a real Gregorian date. Together with the hour they name the hour-long UTC window that contains the timestamp, and the row's weekday is the weekday of that date. |
| LogFile.TimeRowExample | etl.py:48-51 | 2018-11-01T00:30:26Z gives hour 0, day 1, week 44, month 11, year 2018, weekday 3. |
| LogFile.TimeRowYearEndExample | etl.py:51 | 31 December 2018 is reported as year 2018 with ISO week 1. |
| LogFile.TimeRowNewYearExample | etl.py:51 | 1 January 2021 is reported as year 2021 with ISO week 53. |
| LogFile.InsertTimes | etl.py:50-56 | The time-insert loop executes one time insert per kept event, in event order. |
| LogFile.InsertUsers | etl.py:58-63 | The user-insert loop appends one user insert per kept event after the statements already executed. |
| LogFile.InsertSongplays | etl.py:65-79 | For each kept event, the songplay loop appends its catalog query and then its songplay insert. |
| LogFile.ProcessLogFile | etl.py:41-79 | Processing a log file gives the reference outcome: each error executes nothing, and a success executes all time inserts, then all user inserts, then query/songplay pairs. |
| LogFile.TimeStmtsAt | etl.py:55-56 | The i-th time insert carries the time row of the i-th kept event. |
| LogFile.UserStmtsAt | etl.py:62-63 | The i-th user insert carries the user row of the i-th kept event. |
| LogFile.PlayStmtsAt | etl.py:66-79 | Positions 2i and 2i+1 of the play part hold the i-th kept event's catalog query and its songplay insert. |
| LogFile.LogTraceLayout | etl.py:50-79 | For n kept events there are 4n statements: times at positions 0..n-1, users at n..2n-1, and for each event its query immediately followed by its songplay insert. |
| LogFile.LogTraceTimes | etl.py:50-56 | There is exactly one inserted time row per kept event, in event order, each derived from that event's timestamp. |
| LogFile.LogTraceUsers | etl.py:58-63 | There is exactly one inserted user row per kept event, in event order, with no deduplication. |
| LogFile.LogTracePlays | etl.py:65-79 | There is exactly one catalog query and one songplay insert per kept event, in event order. The query uses (song, artist, length), and the row uses that event's lookup result. |
| LogFile.LogTraceNoCatalogRows | etl.py:30-79 | An event-log file never inserts into the songs or artists tables. |
| LogFile.SongplayIds | etl.py:69-78 | Song id and artist id are both present, both from the one catalog row, exactly when the catalog holds the event's key; otherwise both are absent. All other fields are copied from the event, in column order. |
| LogFile.NonPlayInvisible | etl.py:45-79 | Removing a non-`NextSong` event never changes the executed statements, and it changes nothing at all while other lines remain. |
| Discovery.Join | etl.py:95 | A joined path starts with the directory and ends with the name. Its length is the two lengths added, plus one for a `/` between them exactly when the directory is non-empty and does not already end in one. |
| Discovery.JoinKeepsSuffix | etl.py:95 | A path joined from a `.json` name ends in `.json`. |
| Discovery.Select | etl.py:95-97 | A directory's selected paths are exactly the joins of its entries that match `*.json`, and each ends in `.json`. An entry matches when its name ends in `.json` and does not start with `.`, because the `*` wildcard never matches a leading dot. |
| Discovery.SelectOne | etl.py:95 | A single entry yields its joined path when it matches and nothing otherwise. |
| Discovery.SelectAppend | etl.py:95-97 | Selecting from two parts of a listing gives the first part's paths followed by the second part's. Together with SelectOne this fixes the result as one path per matching entry, in listing order. |
| Discovery.SelectNone | etl.py:95 | A directory with no matching entry yields no path. |
| Discovery.Collect | etl.py:93-97 | Every collected path ends in `.json`. |
| Discovery.CollectMembers | etl.py:93-97 | A path is collected exactly when it joins a matching entry name to the directory that lists it. |
| Discovery.CollectAppend | etl.py:94-97 | Walking two parts of a tree one after the other collects their files one after the other. |
| Discovery.NoMatchesInvisible | etl.py:94-97 | A visited directory without matching entries adds nothing, wherever the walk visits it. |
| Discovery.CollectFiles | etl.py:93-97 | The nested discovery loop collects exactly `Collect(walk)`. |
| Driver.StepCommittedOk | etl.py:105-106 | After a successful call and its commit, everything executed so far is committed. |
| Driver.StepCommittedFailed | etl.py:105 | A failed call commits nothing: the committed statements stay as they were. |
| Driver.AfterSuccess | etl.py:104-107 | A successful call on the next file advances the state by one file: one more call, commit, progress message and file's statements. |
| Driver.FinishFailureCounted | etl.py:104-107 | The first failing file is called and its partial statements run, but it is neither committed nor reported, and the run ends. |
| Driver.StepsProgressed | etl.py:104-107 | After the steps of k successful files, exactly those files have been called, committed once each and reported `1/n` to `k/n`, and everything they executed is committed. |
| Driver.CheckpointOf | etl.py:104-107 | Within a run, the log up to the (k+1)-th progress message is the count message plus the steps of the first k+1 files. It ends with `k+1/n`, has called exactly those files, and has committed everything they executed. So each file is committed and reported before the next file is called. |
| Driver.LoadFiles | etl.py:99-107 | The loop's outcome. The log is the count message, then for each processed file its call, its statements, a commit and its `i/n` message, then the failing file's call and partial statements when there is one. Counted over that log: calls in file order up to the first failure, one commit and one `i/n` message per processed file, committed statements equal to those of the processed files, and a checkpoint after each processed file. |
| Driver.ProcessData | etl.py:82-107 | Over the collected files:<br>- the log is the count message followed by one call/statements/commit/`i/n` step per file, in collection order;<br>- after each successful file its statements and all earlier ones are committed and `i/n` is reported, before the next file is called;<br>- the first failure stops the run, keeping exactly the earlier files' statements committed;<br>- with zero files there is no call, commit or progress message. |

## Left out

- `main` and the connection set-up and tear-down (etl.py:110-125) are connection plumbing. They run the driver on the song directory and then on the log directory.
- The SQL text of the statements and the tables' upsert/conflict rules are not modelled, so statements are opaque tags with their arguments. The `sql_queries` module is not part of this model.
- The JSON reader and DataFrame mechanics are not modelled: files arrive parsed, as sequences of records with every selected column present. A line that lacks a column is not modelled. Column types other than the ones the extractors use are not modelled.
- Floating-point fields (duration, length, latitude, longitude) are opaque values compared only for equality. No tolerance is modelled in the catalog match.
- The filesystem walk is an input sequence of listings. Several details of `os.walk`, `glob` and `os.path` are left out:
  - path normalisation by `abspath` and `os.path.join`;
  - `glob` wildcards inside the directory name;
  - `glob` also matching sub-directories whose names end in `.json`.
- The text of the two printed messages is not modelled. The log keeps the file count and the `(i, n)` pair.
- A failing catalog query, a failing insert and a failing commit are not modelled. The driver handles any extractor failure the same way; how the extractor fails is left to the `Run` it returns.
- The catalog is a fixed map for the whole log run. The model does not follow how song files loaded earlier fill the tables that the query reads.
- Timestamps are kept as epoch milliseconds, in both the time row and the songplay row. The source stores the equivalent datetime value instead.
- Calendar.IsoWeek: proved only to lie in 1..53 and checked on three dates around year boundaries. It is not proved equal, for all days, to an independent definition of the ISO 8601 week date.
- Calendar.CivilFromDays: proved to give a real date (day within its month's length) that `DaysFromCivil` maps back to the same day count. It is not proved against an independent day-by-day count.

## Edge cases of the script

- With zero files, the script prints `0 files found in …` and no progress line. In the model the log is just the count message.
- A missing or unreadable data directory is not an error: the walk yields nothing and the driver sees zero files. The model takes the walk as given, so that case is the empty walk.
- An empty event-log file fails when the code selects the `page` column. An empty catalog file fails when the code selects the catalog columns. Both surface as `MissingColumn`.

=== FILE: calendar.dfy ===
/**
 Proleptic Gregorian calendar arithmetic on whole days counted from the Unix
 epoch (1970-01-01 = day 0), used to derive the calendar fields of a
 timestamp: day of month, month, year, ISO 8601 week number and weekday with
 Monday = 0.

 Day counts are split the classic way: into 400-year eras of 146097 days, each
 era into centuries, four-year blocks and years, with every year starting on
 1 March so that the leap day is the last day of its year. Dafny's `/` and `%`
 with a positive divisor round toward negative infinity, which is exactly the
 floor division needed for days before the epoch.
 */
module Calendar {

  const MsPerHour: int := 3_600_000
  const MsPerDay: int := 86_400_000
  /** Days from 0000-03-01 to 1970-01-01. */
  const EpochShift: int := 719_468
  const DaysPerEra: int := 146_097

  datatype Date = Date(year: int, month: int, day: int)

  /** A March-based position: era, year of era (0..399) and day of that year (0..365). */
  datatype EraPos = EraPos(era: int, yoe: int, doy: int)

  predicate Leap(y: int) {
    y % 4 == 0 && (y % 100 != 0 || y % 400 == 0)
  }

  /** Day of era on which the March-based year `yoe` of an era starts. */
  function YearStart(yoe: int): int {
    365 * yoe + yoe / 4 - yoe / 100
  }

  /** Day count since 1970-01-01 of 1 March of year `y`. */
  function MarchFirst(y: int): int {
    (y / 400) * DaysPerEra + YearStart(y % 400) - EpochShift
  }

  /** The March-based year of era that holds day `doe` of an era. */
  function YearOfEra(doe: int): (yoe: int)
    requires 0 <= doe < DaysPerEra
    ensures 0 <= yoe <= 399
    ensures 0 <= doe - YearStart(yoe) <= 365
  {
    var c := if doe / 36524 == 4 then 3 else doe / 36524;
    var q := (doe - 36524 * c) / 1461;
    var dq := (doe - 36524 * c) % 1461;
    var yq := if dq / 365 == 4 then 3 else dq / 365;
    YearStartOfBlocks(c, q, yq);
    100 * c + 4 * q + yq
  }

  lemma YearStartOfBlocks(c: int, q: int, yq: int)
    requires 0 <= c <= 3 && 0 <= q <= 24 && 0 <= yq <= 3
    ensures YearStart(100 * c + 4 * q + yq) == 36524 * c + 1461 * q + 365 * yq
  {
    var yoe := 100 * c + 4 * q + yq;
    assert yoe / 4 == 25 * c + q;
    assert yoe / 100 == c;
  }

  /**
   A day of an era lies inside its March-based year: that year has 366 days
   when the calendar year after its start is a leap year, and 365 otherwise.
   */
  lemma YearOfEraTight(doe: int)
    requires 0 <= doe < DaysPerEra
    ensures doe - YearStart(YearOfEra(doe)) < if Leap(YearOfEra(doe) + 1) then 366 else 365
  {
    var c := if doe / 36524 == 4 then 3 else doe / 36524;
    var r := doe - 36524 * c;
    var q := r / 1461;
    var dq := r % 1461;
    var yq := if dq / 365 == 4 then 3 else dq / 365;
    YearStartOfBlocks(c, q, yq);
    var yoe := 100 * c + 4 * q + yq;
    assert YearOfEra(doe) == yoe;
    assert doe - YearStart(yoe) == dq - 365 * yq;
    if dq - 365 * yq == 365 {
      assert dq == 1460 && yq == 3;
      if doe == DaysPerEra - 1 {
        assert yoe + 1 == 400;
        assert Leap(400);
      } else {
        assert r < 36524;
        BlockEndLeap(c, q);
      }
      assert Leap(yoe + 1);
    }
  }

  /** The year after the last year of a four-year block is a leap year unless it starts a century. */
  lemma BlockEndLeap(c: int, q: int)
    requires 0 <= c <= 3 && 0 <= q <= 23
    ensures Leap(100 * c + 4 * q + 4)
  {
    ShiftRemainder(25 * c + q + 1, 0, 4);
    ShiftRemainder(c, 4 * q + 4, 100);
    assert 100 * c + 4 * q + 4 == 4 * (25 * c + q + 1);
  }

  /** Splits a day count into era, year of era and March-based day of year; the parts add back up. */
  function Split(z: int): (p: EraPos)
    ensures 0 <= p.yoe <= 399
    ensures 0 <= p.doy <= 365
    ensures p.era * DaysPerEra + YearStart(p.yoe) + p.doy - EpochShift == z
  {
    var s := z + EpochShift;
    var doe := s % DaysPerEra;
    var yoe := YearOfEra(doe);
    EraPos(s / DaysPerEra, yoe, doe - YearStart(yoe))
  }

  /** Month index from March (0..11) and day of month of a March-based day of year. */
  lemma MonthFacts(doy: int)
    requires 0 <= doy <= 365
    ensures var mp := (5 * doy + 2) / 153;
      var day := doy - (153 * mp + 2) / 5 + 1;
      && 0 <= mp <= 11
      && 1 <= day <= 31
      && (mp >= 10 <==> doy >= 306)
  {
  }

  /** The civil date at a March-based position. */
  function CivilOf(p: EraPos): (d: Date)
    requires 0 <= p.doy <= 365
    ensures 1 <= d.month <= 12
    ensures 1 <= d.day <= 31
  {
    MonthFacts(p.doy);
    var mp := (5 * p.doy + 2) / 153;
    var month := if mp < 10 then mp + 3 else mp - 9;
    Date(p.yoe + 400 * p.era + (if month <= 2 then 1 else 0), month, p.doy - (153 * mp + 2) / 5 + 1)
  }

  /** The number of days of month `m` of year `y` in the Gregorian calendar. */
  function MonthLength(y: int, m: int): int
    requires 1 <= m <= 12
  {
    if m == 2 then (if Leap(y) then 29 else 28)
    else if m == 4 || m == 6 || m == 9 || m == 11 then 30
    else 31
  }

  /** The day of a March-based position never runs past the end of its month. */
  lemma CivilOfValid(p: EraPos)
    requires 0 <= p.doy < if Leap(400 * p.era + p.yoe + 1) then 366 else 365
    ensures CivilOf(p).day <= MonthLength(CivilOf(p).year, CivilOf(p).month)
  {
    var d := CivilOf(p);
    MonthFacts(p.doy);
    if d.month == 2 {
      LeapPeriodic(400 * p.era + p.yoe + 1, p.era, p.yoe + 1);
      assert d.year == 400 * p.era + p.yoe + 1;
    }
  }

  /** The day of year of a split day count lies inside its March-based year. */
  lemma SplitTight(z: int)
    ensures Split(z).doy < if Leap(400 * Split(z).era + Split(z).yoe + 1) then 366 else 365
  {
    var s := z + EpochShift;
    var p := Split(z);
    YearOfEraTight(s % DaysPerEra);
    LeapPeriodic(400 * p.era + p.yoe + 1, p.era, p.yoe + 1);
  }

  /** The civil date of day `z` since 1970-01-01: a real Gregorian date. */
  function CivilFromDays(z: int): (d: Date)
    ensures 1 <= d.month <= 12
    ensures 1 <= d.day <= MonthLength(d.year, d.month)
  {
    SplitTight(z);
    CivilOfValid(Split(z));
    CivilOf(Split(z))
  }

  /** The day count since 1970-01-01 of a civil date (any year, month 1..12). */
  function DaysFromCivil(d: Date): int
    requires 1 <= d.month <= 12
  {
    var y := if d.month <= 2 then d.year - 1 else d.year;
    var mp := (d.month + 9) % 12;
    MarchFirst(y) + (153 * mp + 2) / 5 + d.day - 1
  }

  lemma MarchFirstOfEra(y: int, era: int, yoe: int)
    requires y == 400 * era + yoe && 0 <= yoe < 400
    ensures MarchFirst(y) == era * DaysPerEra + YearStart(yoe) - EpochShift
  {
    assert y / 400 == era;
    assert y % 400 == yoe;
  }

  /** January and February close the March-based year; the month and day give back the day of year. */
  lemma CivilOfFacts(p: EraPos)
    requires 0 <= p.doy <= 365
    ensures var d := CivilOf(p);
      var y := 400 * p.era + p.yoe;
      && (d.month <= 2 ==> d.year == y + 1 && 306 <= p.doy)
      && (d.month > 2 ==> d.year == y && p.doy <= 305)
      && (153 * ((d.month + 9) % 12) + 2) / 5 + d.day - 1 == p.doy
  {
    MonthFacts(p.doy);
  }

  /** How the date of day `z` sits on the March-based split of `z`. */
  lemma CivilFacts(z: int)
    ensures var p := Split(z);
      var d := CivilFromDays(z);
      var y := 400 * p.era + p.yoe;
      && z == MarchFirst(y) + p.doy
      && (d.month <= 2 ==> d.year == y + 1 && 306 <= p.doy)
      && (d.month > 2 ==> d.year == y && p.doy <= 305)
      && (153 * ((d.month + 9) % 12) + 2) / 5 + d.day - 1 == p.doy
  {
    var p := Split(z);
    CivilOfFacts(p);
    MarchFirstOfEra(400 * p.era + p.yoe, p.era, p.yoe);
  }

  /** Every day number maps to one date, and that date leads back to the same day number. */
  lemma CivilRoundTrip(z: int)
    ensures DaysFromCivil(CivilFromDays(z)) == z
  {
    CivilFacts(z);
  }

  /** Distinct day numbers have distinct dates. */
  lemma CivilInjective(z1: int, z2: int)
    requires z1 != z2
    ensures CivilFromDays(z1) != CivilFromDays(z2)
  {
    CivilRoundTrip(z1);
    CivilRoundTrip(z2);
  }

  lemma NextQuotient(n: int, k: int)
    requires k == 4 || k == 100
    ensures (n + 1) / k - n / k == if (n + 1) % k == 0 then 1 else 0
  {
    if k == 4 {
      assert (n + 1) / 4 - n / 4 == if (n + 1) % 4 == 0 then 1 else 0;
    } else {
      assert (n + 1) / 100 - n / 100 == if (n + 1) % 100 == 0 then 1 else 0;
    }
  }

  /** Inside an era, consecutive March-based years are 365 days apart, or 366 before a leap day. */
  lemma YearStartStep(yoe: int)
    requires 0 <= yoe < 399
    ensures YearStart(yoe + 1) - YearStart(yoe) == if Leap(yoe + 1) then 366 else 365
  {
    NextQuotient(yoe, 4);
    NextQuotient(yoe, 100);
    assert (yoe + 1) % 400 != 0;
  }

  lemma ShiftRemainder(m: int, r: int, k: int)
    requires k == 4 || k == 100 || k == 400
    ensures (k * m + r) % k == r % k
  {
    var x := k * m + r;
    var a := m + r / k;
    assert x == k * a + r % k;
    if k == 4 {
      assert 4 * (x / 4 - a) == r % 4 - x % 4;
    } else if k == 100 {
      assert 100 * (x / 100 - a) == r % 100 - x % 100;
    } else {
      assert 400 * (x / 400 - a) == r % 400 - x % 400;
    }
  }

  /** Leap years repeat every 400 years. */
  lemma LeapPeriodic(y: int, era: int, r: int)
    requires y == 400 * era + r
    ensures Leap(y) == Leap(r)
  {
    ShiftRemainder(100 * era, r, 4);
    ShiftRemainder(4 * era, r, 100);
    ShiftRemainder(era, r, 400);
    assert 4 * (100 * era) == 400 * era;
    assert 100 * (4 * era) == 400 * era;
  }

  /**
   A March-based year has 366 days exactly when the February that ends it has
   a 29th, that is when the following calendar year is a leap year.
   */
  lemma MarchYearLength(y: int)
    ensures MarchFirst(y + 1) - MarchFirst(y) == if Leap(y + 1) then 366 else 365
  {
    if y % 400 == 399 {
      EraEndLength(y, y / 400);
    } else {
      InEraLength(y, y / 400, y % 400);
    }
  }

  lemma EraEndLength(y: int, era: int)
    requires y == 400 * era + 399
    ensures MarchFirst(y + 1) - MarchFirst(y) == if Leap(y + 1) then 366 else 365
  {
    assert Leap(y + 1) by {
      LeapPeriodic(y + 1, era + 1, 0);
    }
    assert MarchFirst(y + 1) == era * DaysPerEra + DaysPerEra - EpochShift by {
      MarchFirstOfEra(y + 1, era + 1, 0);
    }
    assert MarchFirst(y) == era * DaysPerEra + 145731 - EpochShift by {
      MarchFirstOfEra(y, era, 399);
      assert YearStart(399) == 145731;
    }
  }

  lemma InEraLength(y: int, era: int, yoe: int)
    requires y == 400 * era + yoe && 0 <= yoe < 399
    ensures MarchFirst(y + 1) - MarchFirst(y) == if Leap(y + 1) then 366 else 365
  {
    MarchFirstOfEra(y, era, yoe);
    MarchFirstOfEra(y + 1, era, yoe + 1);
    LeapPeriodic(y + 1, era, yoe + 1);
    YearStartStep(yoe);
  }

  /** 1 January of year `y` is day 306 of the March-based year `y - 1`. */
  lemma NewYear(y: int)
    ensures DaysFromCivil(Date(y, 1, 1)) == MarchFirst(y - 1) + 306
  {
  }

  /** Weekday of day `z`, Monday = 0 (1970-01-01 was a Thursday). */
  function Weekday(z: int): (w: int)
    ensures 0 <= w <= 6
  {
    (z + 3) % 7
  }

  /** Consecutive days have consecutive weekdays, Sunday (6) being followed by Monday (0). */
  lemma WeekdayNext(z: int)
    ensures Weekday(z + 1) == (Weekday(z) + 1) % 7
  {
  }

  /** 1 January 1970 was a Thursday; with `WeekdayNext` this fixes the weekday of every day. */
  lemma WeekdayEpoch()
    ensures Weekday(DaysFromCivil(Date(1970, 1, 1))) == 3
  {
    assert MarchFirst(1969) == -306;
  }

  /** 1-based day of the January-based year for day `z`. */
  function Ordinal(z: int): int {
    z - DaysFromCivil(Date(CivilFromDays(z).year, 1, 1)) + 1
  }

  /** Every day falls between 1 January of its own year and the last day of that year. */
  lemma OrdinalBounds(z: int)
    ensures 1 <= Ordinal(z) <= (if Leap(CivilFromDays(z).year) then 366 else 365)
  {
    if CivilFromDays(z).month <= 2 {
      OrdinalBoundsEarly(z);
    } else {
      OrdinalBoundsLate(z);
    }
  }

  /** January and February are the last days of the March-based year that the calendar year ends. */
  lemma OrdinalBoundsEarly(z: int)
    requires CivilFromDays(z).month <= 2
    ensures 1 <= Ordinal(z) <= 60
  {
    CivilFacts(z);
    NewYear(CivilFromDays(z).year);
  }

  /** From March on, a day's ordinal is its March-based day of year plus the length of the year's January and February. */
  lemma OrdinalBoundsLate(z: int)
    requires CivilFromDays(z).month > 2
    ensures 1 <= Ordinal(z) <= (if Leap(CivilFromDays(z).year) then 366 else 365)
  {
    var p := Split(z);
    var y := 400 * p.era + p.yoe;
    assert CivilFromDays(z).year == y && 0 <= p.doy <= 305 && z == MarchFirst(y) + p.doy by {
      CivilFacts(z);
    }
    assert Ordinal(z) == z - MarchFirst(y - 1) - 305 by {
      NewYear(y);
    }
    assert MarchFirst(y) - MarchFirst(y - 1) == if Leap(y) then 366 else 365 by {
      MarchYearLength(y - 1);
    }
  }

  /**
   The ISO 8601 week number of day `z`. ISO weeks run Monday to Sunday and
   belong to the year that holds their Thursday; week 1 is the week of that
   year's first Thursday, so the week number is the position of the week's
   Thursday among that year's Thursdays.
   */
  function IsoWeek(z: int): (w: int)
    ensures 1 <= w <= 53
  {
    WeekOfThursday(z - Weekday(z) + 3)
  }

  /** The position of Thursday `t` among the Thursdays of its calendar year. */
  function WeekOfThursday(t: int): (w: int)
    ensures 1 <= w <= 53
  {
    OrdinalBounds(t);
    (Ordinal(t) - 1) / 7 + 1
  }

  lemma Date2018Nov01()
    ensures CivilFromDays(17836) == Date(2018, 11, 1)
  {
    assert YearOfEra(6819) == 18;
    assert Split(17836) == EraPos(5, 18, 245);
  }

  lemma Date2018Dec31()
    ensures CivilFromDays(17896) == Date(2018, 12, 31)
  {
    assert YearOfEra(6879) == 18;
    assert Split(17896) == EraPos(5, 18, 305);
  }

  lemma Date2019Jan03()
    ensures CivilFromDays(17899) == Date(2019, 1, 3)
  {
    assert YearOfEra(6882) == 18;
    assert Split(17899) == EraPos(5, 18, 308);
  }

  lemma Date2020Dec31()
    ensures CivilFromDays(18627) == Date(2020, 12, 31)
  {
    assert YearOfEra(7610) == 20;
    assert Split(18627) == EraPos(5, 20, 305);
  }

  lemma Date2021Jan01()
    ensures CivilFromDays(18628) == Date(2021, 1, 1)
  {
    assert YearOfEra(7611) == 20;
    assert Split(18628) == EraPos(5, 20, 306);
  }

  lemma NewYearDays()
    ensures DaysFromCivil(Date(2018, 1, 1)) == 17532
    ensures DaysFromCivil(Date(2019, 1, 1)) == 17897
    ensures DaysFromCivil(Date(2020, 1, 1)) == 18262
  {
    assert MarchFirst(2017) == 17226;
    assert MarchFirst(2018) == 17591;
    assert MarchFirst(2019) == 17956;
  }

  lemma Ordinal2018Nov01()
    ensures Ordinal(17836) == 305
  {
    Date2018Nov01();
    NewYearDays();
  }

  lemma Ordinal2019Jan03()
    ensures Ordinal(17899) == 3
  {
    Date2019Jan03();
    NewYearDays();
  }

  lemma Ordinal2020Dec31()
    ensures Ordinal(18627) == 366
  {
    Date2020Dec31();
    NewYearDays();
  }

  lemma Weekday2018Nov01()
    ensures Weekday(17836) == 3
  {
  }

  lemma Weekday2018Dec31()
    ensures Weekday(17896) == 0
  {
  }

  lemma Weekday2021Jan01()
    ensures Weekday(18628) == 4
  {
  }

  /** The week number of day `z`, from its weekday and the ordinal of its Thursday. */
  lemma IsoWeekFrom(z: int, wd: int, ord: int)
    requires Weekday(z) == wd
    requires Ordinal(z - wd + 3) == ord
    ensures IsoWeek(z) == (ord - 1) / 7 + 1
  {
    assert IsoWeek(z) == WeekOfThursday(z - wd + 3);
  }

  /** Day 17836 is Thursday 1 November 2018, in ISO week 44. */
  lemma Example2018November()
    ensures CivilFromDays(17836) == Date(2018, 11, 1)
    ensures Weekday(17836) == 3
    ensures IsoWeek(17836) == 44
  {
    Date2018Nov01();
    Weekday2018Nov01();
    Ordinal2018Nov01();
    IsoWeekFrom(17836, 3, 305);
  }

  /** Monday 31 December 2018 already belongs to ISO week 1 (of 2019). */
  lemma Example2018YearEnd()
    ensures CivilFromDays(17896) == Date(2018, 12, 31)
    ensures Weekday(17896) == 0
    ensures IsoWeek(17896) == 1
  {
    Date2018Dec31();
    Weekday2018Dec31();
    Ordinal2019Jan03();
    IsoWeekFrom(17896, 0, 3);
  }

  /** Friday 1 January 2021 still belongs to ISO week 53 (of 2020). */
  lemma Example2021NewYear()
    ensures CivilFromDays(18628) == Date(2021, 1, 1)
    ensures Weekday(18628) == 4
    ensures IsoWeek(18628) == 53
  {
    Date2021Jan01();
    Weekday2021Jan01();
    Ordinal2020Dec31();
    IsoWeekFrom(18628, 4, 366);
  }
}

=== FILE: discovery.dfy ===
/**
 File discovery for a data directory. The directory walk is given as the
 sequence of directories it visits, each with the names of the entries the
 `*.json` pattern is matched against; selection keeps the matching names and
 joins each one to its directory, in walk order and listing order.
 */
module Discovery {

  /** One directory visited by the walk and the entry names listed in it. */
  datatype Listing = Listing(dir: string, names: seq<string>)

  const Suffix: string := ".json"

  predicate HasSuffix(s: string) {
    |s| >= |Suffix| && s[|s| - |Suffix|..] == Suffix
  }

  /**
   Whether an entry name matches the pattern `*.json`: it ends in ".json"
   and, since a wildcard never matches a leading dot, it is not hidden.
   */
  predicate Matches(name: string) {
    HasSuffix(name) && name[0] != '.'
  }

  /**
   Joins a directory and an entry name with exactly one separator between
   them; an empty directory leaves the name alone.
   */
  function Join(dir: string, name: string): (path: string)
    ensures |path| == |dir| + |name| + (if |dir| > 0 && dir[|dir| - 1] != '/' then 1 else 0)
    ensures path[|path| - |name|..] == name
    ensures |path| >= |dir| && path[..|dir|] == dir
    ensures |dir| > 0 && dir[|dir| - 1] != '/' ==> |path| > |dir| && path[|dir|] == '/'
  {
    if |dir| == 0 then name
    else if dir[|dir| - 1] == '/' then dir + name
    else dir + "/" + name
  }

  /** A joined path ends in ".json" when its name does. */
  lemma JoinKeepsSuffix(dir: string, name: string)
    requires HasSuffix(name)
    ensures HasSuffix(Join(dir, name))
  {
    var path := Join(dir, name);
    assert path[|path| - |Suffix|..] == path[|path| - |name|..][|name| - |Suffix|..];
  }

  /** The joined paths of the matching names of one listing, in listing order. */
  function Select(dir: string, names: seq<string>): (paths: seq<string>)
    ensures |paths| <= |names|
    ensures forall p :: p in paths <==> exists j :: 0 <= j < |names| && Matches(names[j]) && p == Join(dir, names[j])
    ensures forall k :: 0 <= k < |paths| ==> HasSuffix(paths[k])
  {
    if |names| == 0 then []
    else
      var init := names[..|names| - 1];
      var last := names[|names| - 1];
      var rest := Select(dir, init);
      assert forall j :: 0 <= j < |init| ==> init[j] == names[j];
      if Matches(last) then
        JoinKeepsSuffix(dir, last);
        rest + [Join(dir, last)]
      else rest
  }

  /** A single entry yields its joined path exactly when it matches. */
  lemma SelectOne(dir: string, name: string)
    ensures Select(dir, [name]) == if Matches(name) then [Join(dir, name)] else []
  {
    assert [name][..0] == [];
  }

  /** Selecting from two parts of a listing keeps the paths of the first part before those of the second. */
  lemma {:induction false} SelectAppend(dir: string, a: seq<string>, b: seq<string>)
    ensures Select(dir, a + b) == Select(dir, a) + Select(dir, b)
    decreases |b|
  {
    if |b| == 0 {
      assert a + b == a;
    } else {
      var b' := b[..|b| - 1];
      assert (a + b)[..|a + b| - 1] == a + b';
      assert (a + b)[|a + b| - 1] == b[|b| - 1];
      SelectAppend(dir, a, b');
    }
  }

  /** A listing without a matching name yields no path. */
  lemma {:induction false} SelectNone(dir: string, names: seq<string>)
    requires forall j :: 0 <= j < |names| ==> !Matches(names[j])
    ensures Select(dir, names) == []
    decreases |names|
  {
    if |names| > 0 {
      SelectNone(dir, names[..|names| - 1]);
    }
  }

  /** Every collected path, over the whole walk, in walk order. */
  function Collect(walk: seq<Listing>): (files: seq<string>)
    ensures forall k :: 0 <= k < |files| ==> HasSuffix(files[k])
  {
    if |walk| == 0 then []
    else
      var last := walk[|walk| - 1];
      Collect(walk[..|walk| - 1]) + Select(last.dir, last.names)
  }

  /** Whether `path` is the join of a matching entry name of some visited directory. */
  predicate Listed(walk: seq<Listing>, path: string) {
    exists i, j :: 0 <= i < |walk| && 0 <= j < |walk[i].names| && Matches(walk[i].names[j]) && path == Join(walk[i].dir, walk[i].names[j])
  }

  /** A path is collected exactly when it names a matching entry of some visited directory. */
  lemma {:induction false} CollectMembers(walk: seq<Listing>, path: string)
    ensures path in Collect(walk) <==> Listed(walk, path)
    decreases |walk|
  {
    if |walk| > 0 {
      var init := walk[..|walk| - 1];
      var last := walk[|walk| - 1];
      CollectMembers(init, path);
      if Listed(init, path) {
        var i, j :| 0 <= i < |init| && 0 <= j < |init[i].names| && Matches(init[i].names[j]) && path == Join(init[i].dir, init[i].names[j]);
        assert walk[i] == init[i];
      }
      if path in Select(last.dir, last.names) {
        var j :| 0 <= j < |last.names| && Matches(last.names[j]) && path == Join(last.dir, last.names[j]);
        assert walk[|walk| - 1] == last;
      }
      if Listed(walk, path) {
        var i, j :| 0 <= i < |walk| && 0 <= j < |walk[i].names| && Matches(walk[i].names[j]) && path == Join(walk[i].dir, walk[i].names[j]);
        if i < |walk| - 1 {
          assert init[i] == walk[i];
        }
      }
    }
  }

  /** Walking two parts of a tree one after the other collects their files one after the other. */
  lemma {:induction false} CollectAppend(a: seq<Listing>, b: seq<Listing>)
    ensures Collect(a + b) == Collect(a) + Collect(b)
    decreases |b|
  {
    if |b| == 0 {
      assert a + b == a;
    } else {
      var b' := b[..|b| - 1];
      assert (a + b)[..|a + b| - 1] == a + b';
      CollectAppend(a, b');
    }
  }

  /** A directory with no matching entry contributes nothing, wherever the walk visits it. */
  lemma NoMatchesInvisible(a: seq<Listing>, l: Listing, b: seq<Listing>)
    requires forall j :: 0 <= j < |l.names| ==> !Matches(l.names[j])
    ensures Collect(a + [l] + b) == Collect(a + b)
  {
    CollectAppend(a + [l], b);
    CollectAppend(a, [l]);
    CollectAppend(a, b);
    SelectNone(l.dir, l.names);
    assert [l][..0] == [];
    assert Collect([l]) == [] + [];
  }

  /** The discovery loop: for each visited directory, each matching entry in turn. */
  method CollectFiles(walk: seq<Listing>) returns (files: seq<string>)
    ensures files == Collect(walk)
  {
    files := [];
    var i := 0;
    while i < |walk|
      invariant 0 <= i <= |walk|
      invariant files == Collect(walk[..i])
    {
      var l := walk[i];
      var matched := [];
      var j := 0;
      while j < |l.names|
        invariant 0 <= j <= |l.names|
        invariant matched == Select(l.dir, l.names[..j])
      {
        assert l.names[..j + 1][..j] == l.names[..j];
        if Matches(l.names[j]) {
          matched := matched + [Join(l.dir, l.names[j])];
        }
        j := j + 1;
      }
      assert l.names[..j] == l.names;
      assert walk[..i + 1][..i] == walk[..i];
      files := files + matched;
      i := i + 1;
    }
    assert walk[..i] == walk;
  }
}

=== FILE: driver.dfy ===
/**
 The load driver for one data directory: it collects the directory's JSON
 files, reports how many it found, then hands each file in turn to the
 extractor, committing and reporting progress after each one. An extractor
 failure ends the run; what earlier files committed stays committed.

 The run is observed as a log of effects: the two kinds of message, the
 extractor calls, the statements those calls execute and the commits.
 */
module Driver {
  import opened Types
  import opened Trace
  import opened Discovery

  datatype Effect =
    | Found(count: nat)                // "<count> files found in <directory>"
    | Invoke(path: string)             // the extractor is called on a file
    | Exec(stmt: Stmt)                 // the extractor executes a statement
    | Commit                           // the connection commits
    | Progress(done: nat, total: nat)  // "<done>/<total> files processed."

  /** The pieces `sel` extracts from each effect, concatenated in log order. */
  function Project<T>(log: seq<Effect>, sel: Effect -> seq<T>): (r: seq<T>)
    ensures |log| == 0 ==> r == []
  {
    if |log| == 0 then []
    else Project(log[..|log| - 1], sel) + sel(log[|log| - 1])
  }

  lemma {:induction false} ProjectAppend<T>(a: seq<Effect>, b: seq<Effect>, sel: Effect -> seq<T>)
    ensures Project(a + b, sel) == Project(a, sel) + Project(b, sel)
    decreases |b|
  {
    if |b| == 0 {
      assert a + b == a;
    } else {
      var b' := b[..|b| - 1];
      assert (a + b)[..|a + b| - 1] == a + b';
      ProjectAppend(a, b', sel);
    }
  }

  function CallOf(e: Effect): seq<string> {
    if e.Invoke? then [e.path] else []
  }

  function StmtOf(e: Effect): seq<Stmt> {
    if e.Exec? then [e.stmt] else []
  }

  function CommitOf(e: Effect): seq<Effect> {
    if e.Commit? then [e] else []
  }

  function ReportOf(e: Effect): seq<(int, int)> {
    if e.Progress? then [(e.done, e.total)] else []
  }

  /** The files the extractor was called on, in call order. */
  function Calls(log: seq<Effect>): seq<string> {
    Project(log, CallOf)
  }

  /** Every statement executed, committed or not, in execution order. */
  function Executed(log: seq<Effect>): seq<Stmt> {
    Project(log, StmtOf)
  }

  /** How many times the connection committed. */
  function Commits(log: seq<Effect>): nat {
    |Project(log, CommitOf)|
  }

  /** The progress messages, as (files done, files found) pairs. */
  function Reports(log: seq<Effect>): seq<(int, int)> {
    Project(log, ReportOf)
  }

  /** The statements executed before the last commit: what the database keeps. */
  function Committed(log: seq<Effect>): (r: seq<Stmt>)
    ensures |r| <= |Executed(log)|
  {
    if |log| == 0 then []
    else if log[|log| - 1].Commit? then Executed(log)
    else
      ProjectAppend(log[..|log| - 1], [log[|log| - 1]], StmtOf);
      assert log[..|log| - 1] + [log[|log| - 1]] == log;
      Committed(log[..|log| - 1])
  }

  /** Effects that commit nothing leave the committed statements as they were. */
  lemma {:induction false} CommittedNoCommit(log: seq<Effect>, more: seq<Effect>)
    requires forall k :: 0 <= k < |more| ==> !more[k].Commit?
    ensures Committed(log + more) == Committed(log)
    decreases |more|
  {
    if |more| > 0 {
      var more' := more[..|more| - 1];
      assert (log + more)[..|log + more| - 1] == log + more';
      assert !(log + more)[|log + more| - 1].Commit?;
      assert Committed(log + more) == Committed(log + more');
      CommittedNoCommit(log, more');
    } else {
      assert log + more == log;
    }
  }

  /** The effects of executing `stmts`, one after another. */
  function Execs(stmts: seq<Stmt>): (r: seq<Effect>)
    ensures |r| == |stmts|
  {
    if |stmts| == 0 then []
    else Execs(stmts[..|stmts| - 1]) + [Exec(stmts[|stmts| - 1])]
  }

  /** The k-th effect of executing `stmts` executes the k-th statement. */
  lemma {:induction false} ExecsAt(stmts: seq<Stmt>)
    ensures forall k :: 0 <= k < |stmts| ==> Execs(stmts)[k] == Exec(stmts[k])
    decreases |stmts|
  {
    if |stmts| > 0 {
      ExecsAt(stmts[..|stmts| - 1]);
    }
  }

  /** Executing `stmts` is seen as exactly `stmts`. */
  lemma {:induction false} ExecsStmts(stmts: seq<Stmt>)
    ensures Project(Execs(stmts), StmtOf) == stmts
    decreases |stmts|
  {
    if |stmts| > 0 {
      var init := stmts[..|stmts| - 1];
      ExecsStmts(init);
      assert Execs(stmts)[..|stmts| - 1] == Execs(init);
    }
  }

  /** Executing statements makes no call, commit or progress message. */
  lemma {:induction false} ExecsOthers(stmts: seq<Stmt>)
    ensures Project(Execs(stmts), CallOf) == []
    ensures Project(Execs(stmts), CommitOf) == []
    ensures Project(Execs(stmts), ReportOf) == []
    decreases |stmts|
  {
    if |stmts| > 0 {
      var init := stmts[..|stmts| - 1];
      ExecsOthers(init);
      assert Execs(stmts)[..|stmts| - 1] == Execs(init);
    }
  }

  /** All statements the runs of `files` execute, file after file. */
  function Flatten(files: seq<string>, extract: string -> Run): seq<Stmt> {
    if |files| == 0 then []
    else Flatten(files[..|files| - 1], extract) + extract(files[|files| - 1]).executed
  }

  /** The progress pairs after `done` of `total` files: (1, total) up to (done, total). */
  function Progresses(done: nat, total: nat): (r: seq<(int, int)>)
    ensures |r| == done
    ensures forall k :: 0 <= k < done ==> r[k] == (k + 1, total)
  {
    if done == 0 then [] else Progresses(done - 1, total) + [(done, total)]
  }

  lemma ProjectOne<T>(x: Effect, sel: Effect -> seq<T>)
    ensures Project([x], sel) == sel(x)
  {
    assert [x][..0] == [];
  }

  lemma ProjectPair<T>(x: Effect, y: Effect, sel: Effect -> seq<T>)
    ensures Project([x, y], sel) == sel(x) + sel(y)
  {
    assert [x, y][..1] == [x];
    ProjectOne(x, sel);
  }

  /** What the commit and the progress message after a successful call add, or nothing after a failed one. */
  function Tail(run: Run, done: nat, total: nat): seq<Effect> {
    if run.failure.None? then [Commit, Progress(done, total)] else []
  }

  /** The effects of one extractor call on `path` that returned `run`, as the `done`-th of `total` files. */
  function Step(path: string, run: Run, done: nat, total: nat): seq<Effect> {
    [Invoke(path)] + Execs(run.executed) + Tail(run, done, total)
  }

  /** Any projection of a step is the projection of its three parts. */
  lemma StepProject<T>(path: string, run: Run, done: nat, total: nat, sel: Effect -> seq<T>)
    ensures Project(Step(path, run, done, total), sel)
         == sel(Invoke(path)) + Project(Execs(run.executed), sel) + Project(Tail(run, done, total), sel)
  {
    ProjectAppend([Invoke(path)] + Execs(run.executed), Tail(run, done, total), sel);
    ProjectAppend([Invoke(path)], Execs(run.executed), sel);
    ProjectOne(Invoke(path), sel);
  }

  /** What the commit and the progress message add to each projection. */
  lemma TailProject(run: Run, done: nat, total: nat)
    ensures Project(Tail(run, done, total), CallOf) == []
    ensures Project(Tail(run, done, total), StmtOf) == []
    ensures |Project(Tail(run, done, total), CommitOf)| == if run.failure.None? then 1 else 0
    ensures Project(Tail(run, done, total), ReportOf) == if run.failure.None? then [(done, total)] else []
  {
    if run.failure.None? {
      ProjectPair(Commit, Progress(done, total), CallOf);
      ProjectPair(Commit, Progress(done, total), StmtOf);
      ProjectPair(Commit, Progress(done, total), CommitOf);
      ProjectPair(Commit, Progress(done, total), ReportOf);
    }
  }

  /** A step makes exactly one call, on its own file. */
  lemma StepCalls(log: seq<Effect>, path: string, run: Run, done: nat, total: nat)
    ensures Calls(log + Step(path, run, done, total)) == Calls(log) + [path]
  {
    StepProject(path, run, done, total, CallOf);
    ExecsOthers(run.executed);
    TailProject(run, done, total);
    assert [path] + [] + [] == [path];
    ProjectAppend(log, Step(path, run, done, total), CallOf);
  }

  /** The statements of a step are those of its run. */
  lemma StepOwnStmts(path: string, run: Run, done: nat, total: nat)
    ensures Project(Step(path, run, done, total), StmtOf) == run.executed
  {
    StepProject(path, run, done, total, StmtOf);
    ExecsStmts(run.executed);
    TailProject(run, done, total);
    assert [] + run.executed + [] == run.executed;
  }

  /** A step executes exactly the statements of its run. */
  lemma StepStmts(log: seq<Effect>, path: string, run: Run, done: nat, total: nat)
    ensures Executed(log + Step(path, run, done, total)) == Executed(log) + run.executed
  {
    StepOwnStmts(path, run, done, total);
    ProjectAppend(log, Step(path, run, done, total), StmtOf);
  }

  /** A step commits once if its run succeeded and never otherwise. */
  lemma StepCommits(log: seq<Effect>, path: string, run: Run, done: nat, total: nat)
    ensures Commits(log + Step(path, run, done, total)) == Commits(log) + if run.failure.None? then 1 else 0
  {
    StepProject(path, run, done, total, CommitOf);
    ExecsOthers(run.executed);
    TailProject(run, done, total);
    ProjectAppend(log, Step(path, run, done, total), CommitOf);
  }

  /** A step reports its progress if its run succeeded and reports nothing otherwise. */
  lemma StepReports(log: seq<Effect>, path: string, run: Run, done: nat, total: nat)
    ensures Reports(log + Step(path, run, done, total))
         == Reports(log) + if run.failure.None? then [(done, total)] else []
  {
    var tail := Project(Tail(run, done, total), ReportOf);
    StepProject(path, run, done, total, ReportOf);
    ExecsOthers(run.executed);
    TailProject(run, done, total);
    assert [] + [] + tail == tail;
    ProjectAppend(log, Step(path, run, done, total), ReportOf);
  }

  /** After a successful step everything executed so far is committed. */
  lemma StepCommittedOk(log: seq<Effect>, path: string, run: Run, done: nat, total: nat)
    requires run.failure.None?
    ensures Committed(log + Step(path, run, done, total)) == Executed(log) + run.executed
  {
    var head := [Invoke(path)] + Execs(run.executed);
    var committing := log + head + [Commit];
    var all := log + Step(path, run, done, total);
    assert all == committing + [Progress(done, total)];
    assert all[..|all| - 1] == committing;
    assert Committed(all) == Committed(committing);
    assert committing[|committing| - 1] == Commit;
    assert Committed(committing) == Executed(committing);
    ProjectAppend(log + head, [Commit], StmtOf);
    ProjectOne(Commit, StmtOf);
    var before := Project(log + head, StmtOf);
    assert before + [] == before;
    assert Executed(committing) == before;
    ProjectAppend([Invoke(path)], Execs(run.executed), StmtOf);
    ProjectOne(Invoke(path), StmtOf);
    ExecsStmts(run.executed);
    assert [] + run.executed == run.executed;
    assert Project(head, StmtOf) == run.executed;
    ProjectAppend(log, head, StmtOf);
    assert before == Executed(log) + run.executed;
  }

  /** A failed step leaves the committed statements as they were. */
  lemma StepCommittedFailed(log: seq<Effect>, path: string, run: Run, done: nat, total: nat)
    requires run.failure.Some?
    ensures Committed(log + Step(path, run, done, total)) == Committed(log)
  {
    var head := [Invoke(path)] + Execs(run.executed);
    assert Step(path, run, done, total) == head;
    ExecsAt(run.executed);
    assert forall k :: 1 <= k < |head| ==> head[k] == Execs(run.executed)[k - 1];
    CommittedNoCommit(log, head);
  }

  /**
   The observable state after the first `done` files all succeeded: the count
   message came first, the files were called in order, each committed and
   reported once, and the database holds exactly their statements.
   */
  predicate Progressed(log: seq<Effect>, files: seq<string>, done: nat, extract: string -> Run)
    requires done <= |files|
  {
    && |log| > 0 && log[0] == Found(|files|)
    && (|files| == 0 ==> log == [Found(0)])
    && (forall k :: 0 <= k < done ==> extract(files[k]).failure.None?)
    && Calls(log) == files[..done]
    && Commits(log) == done
    && Reports(log) == Progresses(done, |files|)
    && Executed(log) == Flatten(files[..done], extract)
    && Committed(log) == Executed(log)
  }

  /** Before the first call nothing has been called, executed, committed or reported. */
  lemma Start(files: seq<string>, extract: string -> Run)
    ensures Progressed([Found(|files|)], files, 0, extract)
  {
    ProjectOne(Found(|files|), CallOf);
    ProjectOne(Found(|files|), StmtOf);
    ProjectOne(Found(|files|), CommitOf);
    ProjectOne(Found(|files|), ReportOf);
  }

  /** A successful call on the next file adds one call, one commit and one progress message. */
  lemma AfterSuccessCounts(log: seq<Effect>, files: seq<string>, i: nat, extract: string -> Run)
    requires i < |files| && extract(files[i]).failure.None?
    requires Calls(log) == files[..i] && Commits(log) == i && Reports(log) == Progresses(i, |files|)
    ensures var log' := log + Step(files[i], extract(files[i]), i + 1, |files|);
      && Calls(log') == files[..i + 1]
      && Commits(log') == i + 1
      && Reports(log') == Progresses(i + 1, |files|)
  {
    var path := files[i];
    var run := extract(path);
    assert files[..i + 1] == files[..i] + [path];
    StepCalls(log, path, run, i + 1, |files|);
    StepCommits(log, path, run, i + 1, |files|);
    StepReports(log, path, run, i + 1, |files|);
  }

  /** A successful call on the next file executes that file's statements and commits them. */
  lemma AfterSuccessStmts(log: seq<Effect>, files: seq<string>, i: nat, extract: string -> Run)
    requires i < |files| && extract(files[i]).failure.None?
    requires Executed(log) == Flatten(files[..i], extract)
    ensures var log' := log + Step(files[i], extract(files[i]), i + 1, |files|);
      && Executed(log') == Flatten(files[..i + 1], extract)
      && Committed(log') == Executed(log')
  {
    var path := files[i];
    var run := extract(path);
    assert files[..i + 1][..i] == files[..i];
    StepStmts(log, path, run, i + 1, |files|);
    StepCommittedOk(log, path, run, i + 1, |files|);
  }

  /** A successful call on the next file moves the observable state one file on. */
  lemma AfterSuccess(log: seq<Effect>, files: seq<string>, i: nat, extract: string -> Run)
    requires i < |files| && Progressed(log, files, i, extract)
    requires extract(files[i]).failure.None?
    ensures Progressed(log + Step(files[i], extract(files[i]), i + 1, |files|), files, i + 1, extract)
  {
    AfterSuccessCounts(log, files, i, extract);
    AfterSuccessStmts(log, files, i, extract);
  }

  /** The effects of the calls on the first `n` files, each with the run `extract` gives it. */
  function Steps(files: seq<string>, extract: string -> Run, n: nat): seq<Effect>
    requires n <= |files|
  {
    if n == 0 then []
    else Steps(files, extract, n - 1) + Step(files[n - 1], extract(files[n - 1]), n, |files|)
  }

  /** The steps of fewer files are a prefix of the steps of more files. */
  lemma {:induction false} StepsPrefix(files: seq<string>, extract: string -> Run, k: nat, m: nat)
    requires k <= m <= |files|
    ensures |Steps(files, extract, k)| <= |Steps(files, extract, m)|
    ensures Steps(files, extract, m)[..|Steps(files, extract, k)|] == Steps(files, extract, k)
    decreases m
  {
    if k < m {
      StepsPrefix(files, extract, k, m - 1);
      var s := Steps(files, extract, m - 1);
      var step := Step(files[m - 1], extract(files[m - 1]), m, |files|);
      assert Steps(files, extract, m) == s + step;
      assert (s + step)[..|Steps(files, extract, k)|] == s[..|Steps(files, extract, k)|];
    }
  }

  /** After the first `k` files all succeeded, their steps reach the state `Progressed` describes. */
  lemma {:induction false} StepsProgressed(files: seq<string>, extract: string -> Run, k: nat)
    requires k <= |files|
    requires forall j :: 0 <= j < k ==> extract(files[j]).failure.None?
    ensures Progressed([Found(|files|)] + Steps(files, extract, k), files, k, extract)
    decreases k
  {
    if k == 0 {
      Start(files, extract);
      assert [Found(|files|)] + [] == [Found(|files|)];
    } else {
      var i := k - 1;
      var log := [Found(|files|)] + Steps(files, extract, i);
      var step := Step(files[i], extract(files[i]), i + 1, |files|);
      assert [Found(|files|)] + Steps(files, extract, k) == log + step by {
        assert Steps(files, extract, k) == Steps(files, extract, i) + step;
      }
      StepsProgressed(files, extract, i);
      AfterSuccess(log, files, i, extract);
    }
  }

  /**
   The checkpoint after the (k+1)-th file: the log up to its progress message
   is the count message and the steps of the first k + 1 files; it ends with
   the message "k+1/n", has called exactly those files, and has committed
   everything they executed.
   */
  predicate CheckpointAt(log: seq<Effect>, files: seq<string>, k: nat, extract: string -> Run)
    requires k < |files|
  {
    var prefix := [Found(|files|)] + Steps(files, extract, k + 1);
    && |prefix| <= |log| && log[..|prefix|] == prefix
    && prefix[|prefix| - 1] == Progress(k + 1, |files|)
    && Calls(prefix) == files[..k + 1]
    && Committed(prefix) == Flatten(files[..k + 1], extract)
    && Executed(prefix) == Committed(prefix)
  }

  /** The count message and the steps of the first k + 1 files open a log that holds the steps of more files. */
  lemma CheckpointPrefix(log: seq<Effect>, files: seq<string>, processed: nat, rest: seq<Effect>, extract: string -> Run, k: nat)
    requires k < processed <= |files|
    requires log == [Found(|files|)] + Steps(files, extract, processed) + rest
    ensures var prefix := [Found(|files|)] + Steps(files, extract, k + 1);
      |prefix| <= |log| && log[..|prefix|] == prefix
  {
    var steps := Steps(files, extract, k + 1);
    var all := Steps(files, extract, processed);
    StepsPrefix(files, extract, k + 1, processed);
    assert log == [Found(|files|)] + (all + rest);
    assert (all + rest)[..|steps|] == steps;
  }

  /** The steps of k + 1 successful files end with the progress message "k+1/n". */
  lemma CheckpointLast(files: seq<string>, extract: string -> Run, k: nat)
    requires k < |files| && extract(files[k]).failure.None?
    ensures var prefix := [Found(|files|)] + Steps(files, extract, k + 1);
      prefix[|prefix| - 1] == Progress(k + 1, |files|)
  {
    var step := Step(files[k], extract(files[k]), k + 1, |files|);
    assert Steps(files, extract, k + 1) == Steps(files, extract, k) + step;
    assert step[|step| - 1] == Progress(k + 1, |files|);
  }

  /** The checkpoint of the (k+1)-th file, in a log that starts with the steps of `processed` successful files. */
  lemma CheckpointOf(log: seq<Effect>, files: seq<string>, processed: nat, rest: seq<Effect>, extract: string -> Run, k: nat)
    requires k < processed <= |files|
    requires forall j :: 0 <= j < processed ==> extract(files[j]).failure.None?
    requires log == [Found(|files|)] + Steps(files, extract, processed) + rest
    ensures CheckpointAt(log, files, k, extract)
  {
    CheckpointPrefix(log, files, processed, rest, extract, k);
    CheckpointLast(files, extract, k);
    StepsProgressed(files, extract, k + 1);
  }

  /**
   A log that starts with the steps of `processed` successful files reaches,
   for each of them in turn, the checkpoint of that file.
   */
  lemma Checkpoints(log: seq<Effect>, files: seq<string>, processed: nat, rest: seq<Effect>, extract: string -> Run)
    requires processed <= |files|
    requires forall j :: 0 <= j < processed ==> extract(files[j]).failure.None?
    requires log == [Found(|files|)] + Steps(files, extract, processed) + rest
    ensures forall k :: 0 <= k < processed ==> CheckpointAt(log, files, k, extract)
  {
    forall k | 0 <= k < processed
      ensures CheckpointAt(log, files, k, extract)
    {
      CheckpointOf(log, files, processed, rest, extract, k);
    }
  }

  /**
   The log of loading `files` when the first `processed` files succeed: the
   count message, one step per processed file, and the step of the failing
   file when there is one.
   */
  function LoadLog(files: seq<string>, extract: string -> Run, processed: nat, failed: bool): seq<Effect>
    requires processed <= |files| && (failed ==> processed < |files|)
  {
    [Found(|files|)] + Steps(files, extract, processed)
      + (if failed then Step(files[processed], extract(files[processed]), processed + 1, |files|) else [])
  }

  /**
   What loading `files` leaves behind, counted: the count message comes
   first; the first `processed` files succeeded and `failure` is the error of
   the next one, if any; the calls, commits, progress messages and committed
   statements are those of the processed files, plus the call and the
   partial statements of the failing one.
   */
  predicate Counted(log: seq<Effect>, files: seq<string>, processed: nat, failure: Option<Error>, extract: string -> Run) {
    && |log| > 0 && log[0] == Found(|files|)
    && processed <= |files|
    && (forall k :: 0 <= k < processed ==> extract(files[k]).failure.None?)
    && (failure.None? <==> processed == |files|)
    && (failure.Some? ==> failure == extract(files[processed]).failure)
    && Calls(log) == files[..processed + (if failure.Some? then 1 else 0)]
    && Commits(log) == processed
    && Reports(log) == Progresses(processed, |files|)
    && Committed(log) == Flatten(files[..processed], extract)
    && Executed(log) == Committed(log) + (if failure.Some? then extract(files[processed]).executed else [])
    && (|files| == 0 ==> log == [Found(0)])
  }

  /**
   What loading `files` leaves behind, in order: the log is the count message
   and one step per file, so each processed file is committed and reported
   before the next file is called.
   */
  predicate Ordered(log: seq<Effect>, files: seq<string>, processed: nat, failure: Option<Error>, extract: string -> Run)
    requires processed <= |files| && (failure.Some? ==> processed < |files|)
  {
    && log == LoadLog(files, extract, processed, failure.Some?)
    && (forall k :: 0 <= k < processed ==> CheckpointAt(log, files, k, extract))
  }

  /** The outcome of loading `files`, counted and in order. */
  predicate Outcome(log: seq<Effect>, files: seq<string>, processed: nat, failure: Option<Error>, extract: string -> Run) {
    && Counted(log, files, processed, failure, extract)
    && Ordered(log, files, processed, failure, extract)
  }

  /**
   Loading ends after the first failing file: it was called and its partial
   statements executed, but nothing was committed or reported for it.
   */
  lemma FinishFailureCounted(files: seq<string>, i: nat, extract: string -> Run)
    requires i < |files|
    requires forall j :: 0 <= j < i ==> extract(files[j]).failure.None?
    requires extract(files[i]).failure.Some?
    ensures Counted(LoadLog(files, extract, i, true), files, i, extract(files[i]).failure, extract)
  {
    var path := files[i];
    var run := extract(path);
    var log := [Found(|files|)] + Steps(files, extract, i);
    var log' := log + Step(path, run, i + 1, |files|);
    assert LoadLog(files, extract, i, true) == log';
    StepsProgressed(files, extract, i);
    assert files[..i + 1] == files[..i] + [path];
    StepCalls(log, path, run, i + 1, |files|);
    StepStmts(log, path, run, i + 1, |files|);
    StepCommits(log, path, run, i + 1, |files|);
    StepReports(log, path, run, i + 1, |files|);
    StepCommittedFailed(log, path, run, i + 1, |files|);
    var reports := Reports(log);
    assert reports + [] == reports;
    assert log'[0] == log[0];
  }

  /** Each file processed before the failing one reached its checkpoint. */
  lemma FinishFailureOrdered(files: seq<string>, i: nat, extract: string -> Run)
    requires i < |files|
    requires forall j :: 0 <= j < i ==> extract(files[j]).failure.None?
    requires extract(files[i]).failure.Some?
    ensures Ordered(LoadLog(files, extract, i, true), files, i, extract(files[i]).failure, extract)
  {
    Checkpoints(LoadLog(files, extract, i, true), files, i, Step(files[i], extract(files[i]), i + 1, |files|), extract);
  }

  /** Loading ends in the state reached after the last file, when every file succeeded. */
  lemma FinishSuccessCounted(files: seq<string>, extract: string -> Run)
    requires forall j :: 0 <= j < |files| ==> extract(files[j]).failure.None?
    ensures Counted(LoadLog(files, extract, |files|, false), files, |files|, None, extract)
  {
    var log := [Found(|files|)] + Steps(files, extract, |files|);
    assert LoadLog(files, extract, |files|, false) == log;
    StepsProgressed(files, extract, |files|);
    var executed := Executed(log);
    assert executed + [] == executed;
  }

  /** When every file succeeded, each one reached its checkpoint. */
  lemma FinishSuccessOrdered(files: seq<string>, extract: string -> Run)
    requires forall j :: 0 <= j < |files| ==> extract(files[j]).failure.None?
    ensures Ordered(LoadLog(files, extract, |files|, false), files, |files|, None, extract)
  {
    Checkpoints(LoadLog(files, extract, |files|, false), files, |files|, [], extract);
  }

  /**
   Loads the collected files in order, as the second half of processing a
   data directory: the count message, then one step per file until the
   first failure.
   */
  method LoadFiles(files: seq<string>, extract: string -> Run)
    returns (log: seq<Effect>, processed: nat, failure: Option<Error>)
    ensures Outcome(log, files, processed, failure, extract)
  {
    var total := |files|;
    log := [Found(total)];
    assert log == [Found(total)] + [];
    var i := 0;
    while i < total
      invariant 0 <= i <= total
      invariant forall j :: 0 <= j < i ==> extract(files[j]).failure.None?
      invariant log == [Found(total)] + Steps(files, extract, i)
    {
      var path := files[i];
      var run := extract(path);
      if run.failure.Some? {
        FinishFailureCounted(files, i, extract);
        FinishFailureOrdered(files, i, extract);
        log := log + Step(path, run, i + 1, total);
        assert log == LoadLog(files, extract, i, true);
        processed, failure := i, run.failure;
        return;
      }
      assert Steps(files, extract, i + 1) == Steps(files, extract, i) + Step(path, run, i + 1, total);
      log := log + Step(path, run, i + 1, total);
      i := i + 1;
    }
    FinishSuccessCounted(files, extract);
    FinishSuccessOrdered(files, extract);
    assert log == LoadLog(files, extract, total, false);
    processed, failure := total, None;
  }

  /**
   Processes one data directory. With n files collected, the run reports n,
   then calls the extractor on the files in collection order; after each
   successful call it commits and reports "i/n" for the i-th file. The first
   failing call ends the run: that file is neither committed nor reported,
   no later file is called, and the database keeps exactly the statements of
   the files processed before it.
   */
  method ProcessData(walk: seq<Listing>, extract: string -> Run)
    returns (log: seq<Effect>, processed: nat, failure: Option<Error>)
    ensures |log| > 0 && log[0] == Found(|Collect(walk)|)
    ensures processed <= |Collect(walk)|
    ensures forall k :: 0 <= k < processed ==> extract(Collect(walk)[k]).failure.None?
    ensures failure.None? <==> processed == |Collect(walk)|
    ensures failure.Some? ==> failure == extract(Collect(walk)[processed]).failure
    ensures Calls(log) == Collect(walk)[..processed + (if failure.Some? then 1 else 0)]
    ensures Commits(log) == processed
    ensures Reports(log) == Progresses(processed, |Collect(walk)|)
    ensures Committed(log) == Flatten(Collect(walk)[..processed], extract)
    ensures Executed(log) == Committed(log) + (if failure.Some? then extract(Collect(walk)[processed]).executed else [])
    ensures |Collect(walk)| == 0 ==> log == [Found(0)]
    ensures log == LoadLog(Collect(walk), extract, processed, failure.Some?)
    ensures forall k :: 0 <= k < processed ==> CheckpointAt(log, Collect(walk), k, extract)
  {
    var files := CollectFiles(walk);
    log, processed, failure := LoadFiles(files, extract);
  }
}

=== FILE: log_file.dfy ===
/**
 The event extractor: one event-log file becomes, for every "NextSong" event
 in file order, a time row, a user row, one catalog query and one songplay
 row. The catalog query is a given partial map from (title, artist name,
 duration) to the ids of the first matching row.
 */
module LogFile {
  import opened Types
  import opened Trace
  import opened Calendar

  /** One line of an event-log file, with the columns the extractor reads. */
  datatype LogEvent = LogEvent(
    page: string, ts: int,
    song: string, artist: string, length: Float,
    userId: string, firstName: string, lastName: string, gender: string, level: string,
    sessionId: int, location: string, userAgent: string)

  /** The ids a catalog query returns for a matching song. */
  datatype CatalogIds = CatalogIds(songId: string, artistId: string)

  type Catalog = map<SongKey, CatalogIds>

  const NextSong: string := "NextSong"

  /** Nanosecond timestamps are signed 64-bit values whose minimum is reserved for "not a time". */
  const MaxNanos: int := 0x7FFF_FFFF_FFFF_FFFF

  /** Whether a millisecond timestamp can be converted to a nanosecond date-time. */
  predicate Convertible(ts: int) {
    -MaxNanos <= ts * 1_000_000 <= MaxNanos
  }

  predicate AllConvertible(events: seq<LogEvent>) {
    forall i :: 0 <= i < |events| ==> Convertible(events[i].ts)
  }

  /** The events that are song plays, in file order. */
  function Kept(events: seq<LogEvent>): (k: seq<LogEvent>)
    ensures |k| <= |events|
    ensures forall e :: e in k <==> e in events && e.page == NextSong
  {
    if |events| == 0 then []
    else
      var last := events[|events| - 1];
      var rest := Kept(events[..|events| - 1]);
      assert events == events[..|events| - 1] + [last];
      if last.page == NextSong then rest + [last] else rest
  }

  lemma {:induction false} KeptAppend(a: seq<LogEvent>, b: seq<LogEvent>)
    ensures Kept(a + b) == Kept(a) + Kept(b)
    decreases |b|
  {
    if |b| == 0 {
      assert a + b == a;
    } else {
      var b' := b[..|b| - 1];
      assert (a + b)[..|a + b| - 1] == a + b';
      KeptAppend(a, b');
    }
  }

  /** An event that is not a song play changes nothing about which events are kept. */
  lemma DroppedEventInvisible(a: seq<LogEvent>, e: LogEvent, b: seq<LogEvent>)
    requires e.page != NextSong
    ensures Kept(a + [e] + b) == Kept(a + b)
  {
    KeptAppend(a + [e], b);
    KeptAppend(a, [e]);
    KeptAppend(a, b);
    assert Kept([e]) == [];
  }

  /**
   The time-table row of a timestamp: hour of the day, day of the month, ISO
   8601 week number, month, year and weekday (Monday = 0), all in UTC.
   */
  function TimeRowOf(ts: int): (t: TimeRow)
    ensures t.start == ts
    ensures 0 <= t.hour <= 23
    ensures 1 <= t.month <= 12
    ensures 1 <= t.day <= MonthLength(t.year, t.month)
    ensures 1 <= t.week <= 53
    ensures 0 <= t.weekday <= 6
  {
    var days := ts / MsPerDay;
    var date := CivilFromDays(days);
    TimeRow(ts, (ts % MsPerDay) / MsPerHour, date.day, IsoWeek(days), date.month, date.year, Weekday(days))
  }

  /**
   The date and hour of a time row name the hour-long window that holds the
   timestamp: the date is a real Gregorian date, and its weekday is the
   weekday of that date.
   */
  lemma TimeRowLocatesTimestamp(ts: int)
    ensures var t := TimeRowOf(ts);
      && 1 <= t.month <= 12
      && 1 <= t.day <= MonthLength(t.year, t.month)
    ensures var t := TimeRowOf(ts);
      var dayStart := DaysFromCivil(Date(t.year, t.month, t.day)) * MsPerDay;
      && dayStart + t.hour * MsPerHour <= ts < dayStart + (t.hour + 1) * MsPerHour
      && t.weekday == Weekday(DaysFromCivil(Date(t.year, t.month, t.day)))
  {
    var days := ts / MsPerDay;
    CivilRoundTrip(days);
    var t := TimeRowOf(ts);
    assert DaysFromCivil(Date(t.year, t.month, t.day)) == days;
    var rem := ts % MsPerDay;
    assert ts == days * MsPerDay + rem;
    assert t.hour == rem / MsPerHour;
    assert t.hour * MsPerHour <= rem < (t.hour + 1) * MsPerHour;
  }

  /** 2018-11-01T00:30:26Z is hour 0 of Thursday 1 November 2018, in ISO week 44. */
  lemma TimeRowExample()
    ensures TimeRowOf(1_541_032_226_000) == TimeRow(1_541_032_226_000, 0, 1, 44, 11, 2018, 3)
  {
    assert 1_541_032_226_000 / MsPerDay == 17836;
    assert 1_541_032_226_000 % MsPerDay == 1_826_000;
    Example2018November();
  }

  /** The last day of 2018 is reported with year 2018 but ISO week 1. */
  lemma TimeRowYearEndExample()
    ensures TimeRowOf(17896 * MsPerDay).year == 2018
    ensures TimeRowOf(17896 * MsPerDay).week == 1
  {
    assert 17896 * MsPerDay / MsPerDay == 17896;
    Example2018YearEnd();
  }

  /** The first day of 2021 is reported with year 2021 but ISO week 53. */
  lemma TimeRowNewYearExample()
    ensures TimeRowOf(18628 * MsPerDay).year == 2021
    ensures TimeRowOf(18628 * MsPerDay).week == 53
  {
    assert 18628 * MsPerDay / MsPerDay == 18628;
    Example2021NewYear();
  }

  function UserRowOf(e: LogEvent): UserRow {
    UserRow(e.userId, e.firstName, e.lastName, e.gender, e.level)
  }

  function KeyOf(e: LogEvent): SongKey {
    SongKey(e.song, e.artist, e.length)
  }

  /** The first row the catalog query returns, if any. */
  function Resolve(catalog: Catalog, key: SongKey): Option<CatalogIds> {
    if key in catalog then Some(catalog[key]) else None
  }

  /** The songplay row of an event, given the result of its catalog query. */
  function SongplayRowOf(e: LogEvent, found: Option<CatalogIds>): SongplayRow {
    match found
    case Some(ids) => SongplayRow(e.ts, e.userId, e.level, Some(ids.songId), Some(ids.artistId), e.sessionId, e.location, e.userAgent)
    case None => SongplayRow(e.ts, e.userId, e.level, None, None, e.sessionId, e.location, e.userAgent)
  }

  function TimeInsert(e: LogEvent): Stmt {
    InsertTime(TimeRowOf(e.ts))
  }

  function UserInsert(e: LogEvent): Stmt {
    InsertUser(UserRowOf(e))
  }

  function TimeStmts(kept: seq<LogEvent>): (s: seq<Stmt>)
    ensures |s| == |kept|
  {
    Each(kept, TimeInsert)
  }

  function UserStmts(kept: seq<LogEvent>): (s: seq<Stmt>)
    ensures |s| == |kept|
  {
    Each(kept, UserInsert)
  }

  function PlayStmts(kept: seq<LogEvent>, catalog: Catalog): (s: seq<Stmt>)
    ensures |s| == 2 * |kept|
  {
    if |kept| == 0 then []
    else
      var e := kept[|kept| - 1];
      PlayStmts(kept[..|kept| - 1], catalog)
        + [SelectSong(KeyOf(e)), InsertSongplay(SongplayRowOf(e, Resolve(catalog, KeyOf(e))))]
  }

  /** All time inserts, then all user inserts, then a query and a songplay insert per event. */
  function LogTrace(kept: seq<LogEvent>, catalog: Catalog): (s: seq<Stmt>)
    ensures |s| == 4 * |kept|
  {
    TimeStmts(kept) + UserStmts(kept) + PlayStmts(kept, catalog)
  }

  /**
   Reference outcome of processing one event-log file. Every error is raised
   before the first statement: the reader, the column lookup of the filter
   (an empty file has no columns) and the timestamp conversion of the kept
   events.
   */
  function LogRun(content: Parsed<LogEvent>, catalog: Catalog): Run {
    match content
    case Malformed => Run([], Some(MalformedJson))
    case Lines(records) =>
      if |records| == 0 then Run([], Some(MissingColumn))
      else
        var kept := Kept(records);
        if !AllConvertible(kept) then Run([], Some(TimestampOutOfRange))
        else Run(LogTrace(kept, catalog), None)
  }

  /** The filter on the page column, as a loop over the lines. */
  method FilterPlays(records: seq<LogEvent>) returns (kept: seq<LogEvent>)
    ensures kept == Kept(records)
  {
    kept := [];
    var i := 0;
    while i < |records|
      invariant 0 <= i <= |records|
      invariant kept == Kept(records[..i])
    {
      assert records[..i + 1] == records[..i] + [records[i]];
      if records[i].page == NextSong {
        kept := kept + [records[i]];
      }
      i := i + 1;
    }
    assert records[..i] == records;
  }

  /** The timestamp conversion, which fails on the first timestamp out of range. */
  method CheckTimestamps(kept: seq<LogEvent>) returns (ok: bool)
    ensures ok <==> AllConvertible(kept)
  {
    var i := 0;
    while i < |kept|
      invariant 0 <= i <= |kept|
      invariant forall j :: 0 <= j < i ==> Convertible(kept[j].ts)
    {
      if !Convertible(kept[i].ts) {
        return false;
      }
      i := i + 1;
    }
    return true;
  }

  /** Executes one time insert per kept event; they are the first statements of the file. */
  method InsertTimes(kept: seq<LogEvent>) returns (trace: seq<Stmt>)
    ensures trace == TimeStmts(kept)
  {
    trace := [];
    var i := 0;
    while i < |kept|
      invariant 0 <= i <= |kept|
      invariant trace == TimeStmts(kept[..i])
    {
      assert kept[..i + 1][..i] == kept[..i];
      trace := trace + [InsertTime(TimeRowOf(kept[i].ts))];
      i := i + 1;
    }
    assert kept[..i] == kept;
  }

  /** Executes one user insert per kept event after the statements in `trace`. */
  method InsertUsers(trace: seq<Stmt>, kept: seq<LogEvent>) returns (trace': seq<Stmt>)
    ensures trace' == trace + UserStmts(kept)
  {
    trace' := trace;
    var i := 0;
    while i < |kept|
      invariant 0 <= i <= |kept|
      invariant trace' == trace + UserStmts(kept[..i])
    {
      assert kept[..i + 1][..i] == kept[..i];
      trace' := trace' + [InsertUser(UserRowOf(kept[i]))];
      i := i + 1;
    }
    assert kept[..i] == kept;
  }

  /** Queries the catalog and executes one songplay insert per kept event after the statements in `trace`. */
  method InsertSongplays(trace: seq<Stmt>, kept: seq<LogEvent>, catalog: Catalog) returns (trace': seq<Stmt>)
    ensures trace' == trace + PlayStmts(kept, catalog)
  {
    trace' := trace;
    var i := 0;
    while i < |kept|
      invariant 0 <= i <= |kept|
      invariant trace' == trace + PlayStmts(kept[..i], catalog)
    {
      assert kept[..i + 1][..i] == kept[..i];
      var e := kept[i];
      trace' := trace' + [SelectSong(KeyOf(e))];
      var found := Resolve(catalog, KeyOf(e));
      trace' := trace' + [InsertSongplay(SongplayRowOf(e, found))];
      i := i + 1;
    }
    assert kept[..i] == kept;
  }

  lemma LogRunSucceeds(records: seq<LogEvent>, catalog: Catalog)
    requires |records| > 0 && AllConvertible(Kept(records))
    ensures LogRun(Lines(records), catalog) == Run(LogTrace(Kept(records), catalog), None)
  {
  }

  /**
   Processes one event-log file the way the extractor does: filter, convert
   timestamps, insert the time rows, insert the user rows, then query the
   catalog and insert a songplay row for each kept event.
   */
  method ProcessLogFile(content: Parsed<LogEvent>, catalog: Catalog) returns (run: Run)
    ensures run == LogRun(content, catalog)
  {
    if content.Malformed? {
      return Run([], Some(MalformedJson));
    }
    var records := content.records;
    if |records| == 0 {
      return Run([], Some(MissingColumn));
    }
    var kept := FilterPlays(records);
    var ok := CheckTimestamps(kept);
    if !ok {
      return Run([], Some(TimestampOutOfRange));
    }
    var trace := InsertTimes(kept);
    trace := InsertUsers(trace, kept);
    trace := InsertSongplays(trace, kept, catalog);
    LogRunSucceeds(records, catalog);
    return Run(trace, None);
  }

  /** The i-th time insert is the time row of the i-th kept event. */
  lemma TimeStmtsAt(kept: seq<LogEvent>)
    ensures forall i :: 0 <= i < |kept| ==> TimeStmts(kept)[i] == InsertTime(TimeRowOf(kept[i].ts))
  {
    EachAt(kept, TimeInsert);
  }

  /** The i-th user insert is the user row of the i-th kept event. */
  lemma UserStmtsAt(kept: seq<LogEvent>)
    ensures forall i :: 0 <= i < |kept| ==> UserStmts(kept)[i] == InsertUser(UserRowOf(kept[i]))
  {
    EachAt(kept, UserInsert);
  }

  /** The i-th kept event owns positions 2i (its catalog query) and 2i + 1 (its songplay insert). */
  lemma {:induction false} PlayStmtsAt(kept: seq<LogEvent>, catalog: Catalog)
    ensures forall i :: 0 <= i < |kept| ==>
      && PlayStmts(kept, catalog)[2 * i] == SelectSong(KeyOf(kept[i]))
      && PlayStmts(kept, catalog)[2 * i + 1] == InsertSongplay(SongplayRowOf(kept[i], Resolve(catalog, KeyOf(kept[i]))))
    decreases |kept|
  {
    if |kept| > 0 {
      PlayStmtsAt(kept[..|kept| - 1], catalog);
    }
  }

  /** The queries and the songplay inserts of the play statements, each one per kept event and in event order. */
  lemma {:induction false} PlayStmtsPick(kept: seq<LogEvent>, catalog: Catalog)
    ensures |Pick(PlayStmts(kept, catalog), AsSelect)| == |kept|
    ensures |Pick(PlayStmts(kept, catalog), AsSongplay)| == |kept|
    ensures forall i :: 0 <= i < |kept| ==>
      && Pick(PlayStmts(kept, catalog), AsSelect)[i] == KeyOf(kept[i])
      && Pick(PlayStmts(kept, catalog), AsSongplay)[i] == SongplayRowOf(kept[i], Resolve(catalog, KeyOf(kept[i])))
    decreases |kept|
  {
    if |kept| > 0 {
      var init := kept[..|kept| - 1];
      var e := kept[|kept| - 1];
      var pair := [SelectSong(KeyOf(e)), InsertSongplay(SongplayRowOf(e, Resolve(catalog, KeyOf(e))))];
      PlayStmtsPick(init, catalog);
      PickAppend(PlayStmts(init, catalog), pair, AsSelect);
      PickAppend(PlayStmts(init, catalog), pair, AsSongplay);
      assert pair[..1] == [pair[0]];
      assert [pair[0]][..0] == [];
    }
  }

  /** Every statement of the play part is a catalog query or a songplay insert. */
  lemma {:induction false} PlayStmtsKind(kept: seq<LogEvent>, catalog: Catalog)
    ensures forall j :: 0 <= j < 2 * |kept| ==> PlayStmts(kept, catalog)[j].SelectSong? || PlayStmts(kept, catalog)[j].InsertSongplay?
    decreases |kept|
  {
    if |kept| > 0 {
      PlayStmtsKind(kept[..|kept| - 1], catalog);
    }
  }

  /** The play part holds no other kind of statement. */
  lemma PlayStmtsPickOthers(kept: seq<LogEvent>, catalog: Catalog)
    ensures Pick(PlayStmts(kept, catalog), AsTime) == []
    ensures Pick(PlayStmts(kept, catalog), AsUser) == []
    ensures Pick(PlayStmts(kept, catalog), AsSong) == []
    ensures Pick(PlayStmts(kept, catalog), AsArtist) == []
  {
    var plays := PlayStmts(kept, catalog);
    PlayStmtsKind(kept, catalog);
    PickNone(plays, AsTime);
    PickNone(plays, AsUser);
    PickNone(plays, AsSong);
    PickNone(plays, AsArtist);
  }

  /** The first n statements of a successfully processed log file are its time inserts. */
  lemma LayoutTimes(kept: seq<LogEvent>, catalog: Catalog)
    ensures forall i :: 0 <= i < |kept| ==> LogTrace(kept, catalog)[i] == TimeStmts(kept)[i]
    ensures forall i :: 0 <= i < |kept| ==> LogTrace(kept, catalog)[|kept| + i] == UserStmts(kept)[i]
    ensures forall j :: 0 <= j < 2 * |kept| ==> LogTrace(kept, catalog)[2 * |kept| + j] == PlayStmts(kept, catalog)[j]
  {
    ConcatAt(TimeStmts(kept), UserStmts(kept), PlayStmts(kept, catalog));
  }

  /** Positions 0..n-1 of a log file's statements hold its time inserts. */
  lemma LogTraceTimesAt(kept: seq<LogEvent>, catalog: Catalog)
    ensures forall i :: 0 <= i < |kept| ==> LogTrace(kept, catalog)[i] == InsertTime(TimeRowOf(kept[i].ts))
  {
    LayoutTimes(kept, catalog);
    TimeStmtsAt(kept);
  }

  /** Positions n..2n-1 of a log file's statements hold its user inserts. */
  lemma LogTraceUsersAt(kept: seq<LogEvent>, catalog: Catalog)
    ensures forall i :: 0 <= i < |kept| ==> LogTrace(kept, catalog)[|kept| + i] == InsertUser(UserRowOf(kept[i]))
  {
    LayoutTimes(kept, catalog);
    UserStmtsAt(kept);
  }

  /** Positions 2n + 2i and 2n + 2i + 1 hold the i-th event's query and songplay insert. */
  lemma LogTracePlaysAt(kept: seq<LogEvent>, catalog: Catalog)
    ensures forall i :: 0 <= i < |kept| ==>
      && LogTrace(kept, catalog)[2 * |kept| + 2 * i] == SelectSong(KeyOf(kept[i]))
      && LogTrace(kept, catalog)[2 * |kept| + 2 * i + 1] == InsertSongplay(SongplayRowOf(kept[i], Resolve(catalog, KeyOf(kept[i]))))
  {
    LayoutTimes(kept, catalog);
    PlayStmtsAt(kept, catalog);
    forall i | 0 <= i < |kept|
      ensures LogTrace(kept, catalog)[2 * |kept| + 2 * i] == PlayStmts(kept, catalog)[2 * i]
      ensures LogTrace(kept, catalog)[2 * |kept| + 2 * i + 1] == PlayStmts(kept, catalog)[2 * i + 1]
    {
    }
  }

  /**
   The statements of a successfully processed log file, by position: first
   the n time inserts, then the n user inserts, then for each kept event its
   catalog query immediately followed by its songplay insert.
   */
  lemma LogTraceLayout(kept: seq<LogEvent>, catalog: Catalog)
    ensures |LogTrace(kept, catalog)| == 4 * |kept|
    ensures forall i :: 0 <= i < |kept| ==> LogTrace(kept, catalog)[i] == InsertTime(TimeRowOf(kept[i].ts))
    ensures forall i :: 0 <= i < |kept| ==> LogTrace(kept, catalog)[|kept| + i] == InsertUser(UserRowOf(kept[i]))
    ensures forall i :: 0 <= i < |kept| ==> LogTrace(kept, catalog)[2 * |kept| + 2 * i] == SelectSong(KeyOf(kept[i]))
    ensures forall i :: 0 <= i < |kept| ==>
      LogTrace(kept, catalog)[2 * |kept| + 2 * i + 1] == InsertSongplay(SongplayRowOf(kept[i], Resolve(catalog, KeyOf(kept[i]))))
  {
    LogTraceTimesAt(kept, catalog);
    LogTraceUsersAt(kept, catalog);
    LogTracePlaysAt(kept, catalog);
  }

  /** Every statement of the time part is a time insert. */
  lemma TimeStmtsKind(kept: seq<LogEvent>)
    ensures forall i :: 0 <= i < |kept| ==> TimeStmts(kept)[i].InsertTime?
  {
    EachAt(kept, TimeInsert);
  }

  /** The time inserts yield the time rows of the kept events, in order. */
  lemma TimeStmtsPick(kept: seq<LogEvent>)
    ensures |Pick(TimeStmts(kept), AsTime)| == |kept|
    ensures forall i :: 0 <= i < |kept| ==> Pick(TimeStmts(kept), AsTime)[i] == TimeRowOf(kept[i].ts)
  {
    TimeStmtsAt(kept);
    PickAll(TimeStmts(kept), AsTime);
  }

  /** The time part holds no other kind of statement. */
  lemma TimeStmtsPickOthers(kept: seq<LogEvent>)
    ensures Pick(TimeStmts(kept), AsUser) == []
    ensures Pick(TimeStmts(kept), AsSelect) == []
    ensures Pick(TimeStmts(kept), AsSongplay) == []
    ensures Pick(TimeStmts(kept), AsSong) == []
    ensures Pick(TimeStmts(kept), AsArtist) == []
  {
    var times := TimeStmts(kept);
    TimeStmtsKind(kept);
    assert Pick(times, AsUser) == [] by { PickNone(times, AsUser); }
    assert Pick(times, AsSelect) == [] by { PickNone(times, AsSelect); }
    assert Pick(times, AsSongplay) == [] by { PickNone(times, AsSongplay); }
    assert Pick(times, AsSong) == [] by { PickNone(times, AsSong); }
    assert Pick(times, AsArtist) == [] by { PickNone(times, AsArtist); }
  }

  /** Every statement of the user part is a user insert. */
  lemma UserStmtsKind(kept: seq<LogEvent>)
    ensures forall i :: 0 <= i < |kept| ==> UserStmts(kept)[i].InsertUser?
  {
    EachAt(kept, UserInsert);
  }

  /** The user inserts yield the user rows of the kept events, in order. */
  lemma UserStmtsPick(kept: seq<LogEvent>)
    ensures |Pick(UserStmts(kept), AsUser)| == |kept|
    ensures forall i :: 0 <= i < |kept| ==> Pick(UserStmts(kept), AsUser)[i] == UserRowOf(kept[i])
  {
    UserStmtsAt(kept);
    PickAll(UserStmts(kept), AsUser);
  }

  /** The user part holds no other kind of statement. */
  lemma UserStmtsPickOthers(kept: seq<LogEvent>)
    ensures Pick(UserStmts(kept), AsTime) == []
    ensures Pick(UserStmts(kept), AsSelect) == []
    ensures Pick(UserStmts(kept), AsSongplay) == []
    ensures Pick(UserStmts(kept), AsSong) == []
    ensures Pick(UserStmts(kept), AsArtist) == []
  {
    var users := UserStmts(kept);
    UserStmtsKind(kept);
    PickNone(users, AsTime);
    PickNone(users, AsSelect);
    PickNone(users, AsSongplay);
    PickNone(users, AsSong);
    PickNone(users, AsArtist);
  }

  /** Reading one kind of statement off a log trace reads it off the three parts in turn. */
  lemma LogTracePick<T>(kept: seq<LogEvent>, catalog: Catalog, sel: Stmt -> Option<T>)
    ensures Pick(LogTrace(kept, catalog), sel)
         == Pick(TimeStmts(kept), sel) + Pick(UserStmts(kept), sel) + Pick(PlayStmts(kept, catalog), sel)
  {
    PickAppend(TimeStmts(kept), UserStmts(kept), sel);
    PickAppend(TimeStmts(kept) + UserStmts(kept), PlayStmts(kept, catalog), sel);
  }

  /** A successfully processed log file inserts exactly one time row per kept event, in event order. */
  lemma LogTraceTimes(kept: seq<LogEvent>, catalog: Catalog)
    ensures |Pick(LogTrace(kept, catalog), AsTime)| == |kept|
    ensures forall i :: 0 <= i < |kept| ==> Pick(LogTrace(kept, catalog), AsTime)[i] == TimeRowOf(kept[i].ts)
  {
    var times := Pick(TimeStmts(kept), AsTime);
    assert Pick(UserStmts(kept), AsTime) == [] by { UserStmtsPickOthers(kept); }
    assert Pick(PlayStmts(kept, catalog), AsTime) == [] by { PlayStmtsPickOthers(kept, catalog); }
    assert Pick(LogTrace(kept, catalog), AsTime) == times by {
      LogTracePick(kept, catalog, AsTime);
      assert times + [] + [] == times;
    }
    TimeStmtsPick(kept);
  }

  /** A successfully processed log file inserts exactly one user row per kept event, in event order, without deduplication. */
  lemma LogTraceUsers(kept: seq<LogEvent>, catalog: Catalog)
    ensures |Pick(LogTrace(kept, catalog), AsUser)| == |kept|
    ensures forall i :: 0 <= i < |kept| ==> Pick(LogTrace(kept, catalog), AsUser)[i] == UserRowOf(kept[i])
  {
    var users := Pick(UserStmts(kept), AsUser);
    assert Pick(TimeStmts(kept), AsUser) == [] by { TimeStmtsPickOthers(kept); }
    assert Pick(PlayStmts(kept, catalog), AsUser) == [] by { PlayStmtsPickOthers(kept, catalog); }
    assert Pick(LogTrace(kept, catalog), AsUser) == users by {
      LogTracePick(kept, catalog, AsUser);
      assert [] + users + [] == users;
    }
    UserStmtsPick(kept);
  }

  /**
   A successfully processed log file queries the catalog exactly once per
   kept event and inserts exactly one songplay row per kept event, both in
   event order.
   */
  lemma LogTracePlays(kept: seq<LogEvent>, catalog: Catalog)
    ensures |Pick(LogTrace(kept, catalog), AsSelect)| == |kept|
    ensures |Pick(LogTrace(kept, catalog), AsSongplay)| == |kept|
    ensures forall i :: 0 <= i < |kept| ==> Pick(LogTrace(kept, catalog), AsSelect)[i] == KeyOf(kept[i])
    ensures forall i :: 0 <= i < |kept| ==>
      Pick(LogTrace(kept, catalog), AsSongplay)[i] == SongplayRowOf(kept[i], Resolve(catalog, KeyOf(kept[i])))
  {
    var selects := Pick(PlayStmts(kept, catalog), AsSelect);
    var plays := Pick(PlayStmts(kept, catalog), AsSongplay);
    TimeStmtsPickOthers(kept);
    UserStmtsPickOthers(kept);
    PlayStmtsPick(kept, catalog);
    LogTracePick(kept, catalog, AsSelect);
    LogTracePick(kept, catalog, AsSongplay);
    assert [] + [] + selects == selects;
    assert [] + [] + plays == plays;
  }

  /** An event-log file never writes to the songs or artists tables. */
  lemma LogTraceNoCatalogRows(kept: seq<LogEvent>, catalog: Catalog)
    ensures Pick(LogTrace(kept, catalog), AsSong) == []
    ensures Pick(LogTrace(kept, catalog), AsArtist) == []
  {
    TimeStmtsPickOthers(kept);
    UserStmtsPickOthers(kept);
    PlayStmtsPickOthers(kept, catalog);
    LogTracePick(kept, catalog, AsSong);
    LogTracePick(kept, catalog, AsArtist);
  }

  /**
   The song id and the artist id of a songplay row both come from the one
   query result, or are both absent: absent exactly when the catalog has no
   row for the event's (title, artist, length). All other fields are copied
   from the event itself.
   */
  lemma SongplayIds(e: LogEvent, catalog: Catalog)
    ensures var r := SongplayRowOf(e, Resolve(catalog, KeyOf(e)));
      && (r.songId.Some? <==> r.artistId.Some?)
      && (r.songId.Some? <==> SongKey(e.song, e.artist, e.length) in catalog)
      && (SongKey(e.song, e.artist, e.length) in catalog ==>
            var ids := catalog[SongKey(e.song, e.artist, e.length)];
            r.songId == Some(ids.songId) && r.artistId == Some(ids.artistId))
      && r.start == e.ts && r.userId == e.userId && r.level == e.level
      && r.sessionId == e.sessionId && r.location == e.location && r.userAgent == e.userAgent
  {
  }

  /**
   An event that is not a song play leaves no trace: removing it from a file
   changes neither the statements executed nor, while other lines remain,
   the outcome.
   */
  lemma NonPlayInvisible(a: seq<LogEvent>, e: LogEvent, b: seq<LogEvent>, catalog: Catalog)
    requires e.page != NextSong
    ensures LogRun(Lines(a + [e] + b), catalog).executed == LogRun(Lines(a + b), catalog).executed
    ensures |a + b| > 0 ==> LogRun(Lines(a + [e] + b), catalog) == LogRun(Lines(a + b), catalog)
  {
    DroppedEventInvisible(a, e, b);
    if |a + b| == 0 {
      assert a + [e] + b == [e];
      assert Kept([e]) == [];
      assert LogTrace([], catalog) == [];
    }
  }
}

=== FILE: song_file.dfy ===
/**
 The catalog extractor: one catalog file becomes one song row and one artist
 row, both taken from the file's first record.
 */
module SongFile {
  import opened Types
  import opened Trace

  /** One line of a catalog file, with the nine columns the extractor selects. */
  datatype CatalogRecord = CatalogRecord(
    songId: string, title: string, artistId: string, year: int, duration: Float,
    artistName: string, artistLocation: Option<string>,
    artistLatitude: Option<Float>, artistLongitude: Option<Float>)

  function SongRowOf(r: CatalogRecord): SongRow {
    SongRow(r.songId, r.title, r.artistId, r.year, r.duration)
  }

  function ArtistRowOf(r: CatalogRecord): ArtistRow {
    ArtistRow(r.artistId, r.artistName, r.artistLocation, r.artistLatitude, r.artistLongitude)
  }

  /** Puts a catalog record back together from its song row and artist row. */
  function Rejoin(s: SongRow, a: ArtistRow): CatalogRecord {
    CatalogRecord(s.songId, s.title, s.artistId, s.year, s.duration,
                  a.name, a.location, a.latitude, a.longitude)
  }

  /**
   Processes one catalog file. A file the JSON reader rejects, or one with no
   lines (and therefore no columns to select), executes nothing; otherwise the
   song insert and then the artist insert are executed, both projected from
   the first record, and the two rows together carry all of it.
   */
  function ProcessSongFile(content: Parsed<CatalogRecord>): (run: Run)
    ensures content.Malformed? ==> run == Run([], Some(MalformedJson))
    ensures content.Lines? && |content.records| == 0 ==> run == Run([], Some(MissingColumn))
    ensures content.Lines? && |content.records| > 0 ==>
      && run.failure.None?
      && |run.executed| == 2
      && run.executed[0].InsertSong?
      && run.executed[1].InsertArtist?
      && run.executed[0].song.artistId == run.executed[1].artist.artistId
      && Rejoin(run.executed[0].song, run.executed[1].artist) == content.records[0]
  {
    match content
    case Malformed => Run([], Some(MalformedJson))
    case Lines(records) =>
      if |records| == 0 then Run([], Some(MissingColumn))
      else
        var first := records[0];
        Run([InsertSong(SongRowOf(first)), InsertArtist(ArtistRowOf(first))], None)
  }

  /**
   Only the first record of a catalog file matters: any lines after it leave
   the executed statements unchanged.
   */
  lemma OnlyFirstRecordCounts(first: CatalogRecord, rest1: seq<CatalogRecord>, rest2: seq<CatalogRecord>)
    ensures ProcessSongFile(Lines([first] + rest1)) == ProcessSongFile(Lines([first] + rest2))
  {
  }
}

=== FILE: trace.dfy ===
/**
 The rows written to the five tables and the statements the cursor executes.
 The cursor is modelled as the append-only sequence of statements it has
 executed; the SQL text behind each statement is left opaque, so a statement
 is just a tag with its positional arguments.
 */
module Trace {
  import opened Types

  /** Row of the songs table: (song_id, title, artist_id, year, duration). */
  datatype SongRow = SongRow(songId: string, title: string, artistId: string, year: int, duration: Float)

  /** Row of the artists table: (artist_id, name, location, latitude, longitude). */
  datatype ArtistRow = ArtistRow(
    artistId: string, name: string, location: Option<string>,
    latitude: Option<Float>, longitude: Option<Float>)

  /** Row of the time table; `start` is the event's timestamp in epoch milliseconds. */
  datatype TimeRow = TimeRow(start: int, hour: int, day: int, week: int, month: int, year: int, weekday: int)

  /** Row of the users table: (userId, firstName, lastName, gender, level). */
  datatype UserRow = UserRow(userId: string, firstName: string, lastName: string, gender: string, level: string)

  /** Arguments of the catalog query: song title, artist name and duration. */
  datatype SongKey = SongKey(title: string, artist: string, length: Float)

  /** Row of the songplays table, in column order. */
  datatype SongplayRow = SongplayRow(
    start: int, userId: string, level: string,
    songId: Option<string>, artistId: Option<string>,
    sessionId: int, location: string, userAgent: string)

  /** One statement executed through the cursor. */
  datatype Stmt =
    | InsertSong(song: SongRow)
    | InsertArtist(artist: ArtistRow)
    | InsertTime(time: TimeRow)
    | InsertUser(user: UserRow)
    | SelectSong(key: SongKey)
    | InsertSongplay(play: SongplayRow)

  /**
   What one call of a file extractor did: the statements it executed, in
   order, and the error that stopped it, if any.
   */
  datatype Run = Run(executed: seq<Stmt>, failure: Option<Error>)

  /** The arguments of the statements `sel` accepts, in trace order. */
  function Pick<T>(trace: seq<Stmt>, sel: Stmt -> Option<T>): (r: seq<T>)
    ensures |r| <= |trace|
  {
    if |trace| == 0 then []
    else
      var rest := Pick(trace[..|trace| - 1], sel);
      match sel(trace[|trace| - 1])
      case Some(x) => rest + [x]
      case None => rest
  }

  lemma {:induction false} PickAppend<T>(a: seq<Stmt>, b: seq<Stmt>, sel: Stmt -> Option<T>)
    ensures Pick(a + b, sel) == Pick(a, sel) + Pick(b, sel)
    decreases |b|
  {
    if |b| == 0 {
      assert a + b == a;
    } else {
      var b' := b[..|b| - 1];
      assert (a + b)[..|a + b| - 1] == a + b';
      PickAppend(a, b', sel);
    }
  }

  /** A trace none of whose statements `sel` accepts contributes nothing. */
  lemma {:induction false} PickNone<T>(trace: seq<Stmt>, sel: Stmt -> Option<T>)
    requires forall i :: 0 <= i < |trace| ==> sel(trace[i]).None?
    ensures Pick(trace, sel) == []
    decreases |trace|
  {
    if |trace| > 0 {
      PickNone(trace[..|trace| - 1], sel);
    }
  }

  /** A trace all of whose statements `sel` accepts contributes one argument per statement, in order. */
  lemma {:induction false} PickAll<T>(trace: seq<Stmt>, sel: Stmt -> Option<T>)
    requires forall i :: 0 <= i < |trace| ==> sel(trace[i]).Some?
    ensures |Pick(trace, sel)| == |trace|
    ensures forall i :: 0 <= i < |trace| ==> Pick(trace, sel)[i] == sel(trace[i]).value
    decreases |trace|
  {
    if |trace| > 0 {
      PickAll(trace[..|trace| - 1], sel);
    }
  }

  /** One statement per element, in element order. */
  function Each<E>(xs: seq<E>, stmt: E -> Stmt): (s: seq<Stmt>)
    ensures |s| == |xs|
  {
    if |xs| == 0 then []
    else Each(xs[..|xs| - 1], stmt) + [stmt(xs[|xs| - 1])]
  }

  /** The i-th statement of `Each` is the statement of the i-th element. */
  lemma {:induction false} EachAt<E>(xs: seq<E>, stmt: E -> Stmt)
    ensures forall i :: 0 <= i < |xs| ==> Each(xs, stmt)[i] == stmt(xs[i])
    decreases |xs|
  {
    if |xs| > 0 {
      EachAt(xs[..|xs| - 1], stmt);
    }
  }

  /** Where the parts of a three-part trace sit inside it. */
  lemma ConcatAt(a: seq<Stmt>, b: seq<Stmt>, c: seq<Stmt>)
    ensures |a + b + c| == |a| + |b| + |c|
    ensures forall i :: 0 <= i < |a| ==> (a + b + c)[i] == a[i]
    ensures forall i :: 0 <= i < |b| ==> (a + b + c)[|a| + i] == b[i]
    ensures forall j :: 0 <= j < |c| ==> (a + b + c)[|a| + |b| + j] == c[j]
  {
  }

  function AsSong(s: Stmt): Option<SongRow> {
    if s.InsertSong? then Some(s.song) else None
  }

  function AsArtist(s: Stmt): Option<ArtistRow> {
    if s.InsertArtist? then Some(s.artist) else None
  }

  function AsTime(s: Stmt): Option<TimeRow> {
    if s.InsertTime? then Some(s.time) else None
  }

  function AsUser(s: Stmt): Option<UserRow> {
    if s.InsertUser? then Some(s.user) else None
  }

  function AsSelect(s: Stmt): Option<SongKey> {
    if s.SelectSong? then Some(s.key) else None
  }

  function AsSongplay(s: Stmt): Option<SongplayRow> {
    if s.InsertSongplay? then Some(s.play) else None
  }
}

=== FILE: types.dfy ===
/**
 Values shared by every part of the loader: optional values, the opaque
 floating-point numbers of the input records, the errors that end a file's
 processing, and the already-parsed content of one JSON-lines file.
 */
module Types {

  datatype Option<T> = None | Some(value: T)

  /**
   A floating-point field (duration, length, latitude, longitude). Only
   equality is ever used on these, so the model keeps the value opaque.
   */
  datatype Float = Float(bits: int)

  /** Ways in which one call of a file extractor can stop early. */
  datatype Error =
    | MalformedJson        // the JSON reader rejects the file
    | MissingColumn        // a selected column is absent (an empty file has no columns at all)
    | TimestampOutOfRange  // a millisecond timestamp whose nanosecond value leaves the signed 64-bit range

  /** The content of one JSON-lines file after parsing: one record per line. */
  datatype Parsed<R> = Malformed | Lines(records: seq<R>)
}
